=== FILE: README.md ===
# simple-ws, modelled in Dafny

simple-ws is a small WebSocket wrapper. Both ends send JSON packets stamped
with a fresh `pID`; a sender may ask for a reply, which a `ReplyHandler`
correlates by `orgPID` within 5000 ms. On the server side a `Server` keeps
a registry of `Client` connections: it accepts them, logs every frame in
and out with a `[DD/MM][hh:mm]` header, heartbeats each connection every
5000 ms, closes the ones that stop answering, and broadcasts packets from
one connection to all the others. On the client side a `WebSocketClient`
connects to a url, reconnects 500 ms after every close, answers heartbeats
and keeps its own awaiting list.

The model has seven modules, one per file:

- `Packets` (packets.dfy): identifiers, the JSON values a packet may carry, the packet variants, frames and the socket record.
- `LogHeader` (log_header.dfy): `addZero` and the log-line header, on four natural numbers.
- `Environment` (environment.dfy): the uuid generator as a counter, and the clock as an input.
- `Correlator` (correlator.dfy): `ReplyHandler` as a class, with a value-level specification of its state (`Handler`) and of whole lifetimes.
- `Hub` (hub.dfy): the server's `Client` and `Server` classes, with the registry filters as functions.
- `Endpoint` (endpoint.dfy): `WebSocketClient` as a class, with its connect/close/reconnect lifecycle as a value (`Link`) and lemmas over event traces.
- `Sequences` (sequences.dfy): three generic helpers (`Subsequence`, `AppendAssoc`, `Distinct`).

Objects whose fields the source updates are classes. Their methods state
the whole new state, in most places by a specification function of the old
state. Promises are `PromiseRef(request, slot)`: the promise handed out by
the `slot`-th read of `prom`. Every callback a correlator invokes is
recorded in `calls`. A promise settles with the first call made to it, so
its outcome is the first entry of `calls` that names it (`Outcome`).
Timers are events: `ReplyHandler.TimerFires`, `WebSocketClient.BackoffElapsed`
and `Hub.Client.SendPing`, the heartbeat tick. The continuation of an
awaited heartbeat is `Hub.Client.PingSettled`.
The server registers a `close` listener on every connection's socket
(src/server.ts:72, src/index.ts:72) that calls `server.close(id)`. A peer's
close reaches the model as `Hub.Server.Close(id)`. The socket is already
CLOSED at that point, so `CloseIfOpen` leaves it as it is and only the
registry filter acts. A later close of the same id is the idempotent case
`Hub.CloseTwice` covers.

src/index.ts is an older copy of the server. For every operation modelled
here its `Client` and `Server` behave as those of src/server.ts. It has no
`reply` and no `broadcast`, and its `setupPacketLogger` takes the path
itself. The same members cover both files; the rows citing src/index.ts
say so.

A resolved request should leave `awaitingReplys`: `checkResolved` returns
true for the handler a responce answers, and the list holds the requests
still awaiting a reply. The code,
`awaitingReplys.filter(repl => repl.checkResolved(packet))`, keeps the
handlers that matched and drops all the others. The classes follow the
code, so their contracts describe what runs (`KeepAnswered`). The corrected
filter is given beside it and is listed under Findings.

## Model

| member | source | states |
|---|---|---|
| Packets.Stamp | src/server.ts:101 | `packet.pID = uuidv4()` sets `pID` to the fresh identifier and keeps the event, `orgPID`, `data`, `time` and body |
| Packets.CloseIfOpen | src/server.ts:197-199 | only an OPEN socket is closed (it moves to closing); any other socket is unchanged; the frames already sent are kept |
| Packets.Truthy | src/server.ts:89 | JavaScript truthiness, the test `!time` negates: `undefined`, `null`, `false`, `0` and `""` are falsy, everything else is truthy; `Hub.Client.PingSettled` closes the connection exactly on a falsy result |
| Packets.ToNumber | src/server.ts:95 | numeric coercion of the awaited value: a number is itself, `undefined` and strings are NaN |
| Packets.Minus | src/server.ts:95 | `Date.now() - time` is the integer difference for a number, and NaN exactly when the coercion gives NaN |
| LogHeader.Digits | src/server.ts:26 | `n.toString()` has at least one character, and exactly one iff `n < 10` |
| LogHeader.AddZero | src/server.ts:25-28 | `addZero` always returns two characters |
| LogHeader.AddZeroTwoDigits | src/server.ts:25-28 | below 100, `addZero(n)` is the two decimal digits of `n`, a single digit padded with `"0"` |
| LogHeader.AddZeroTruncates | src/server.ts:27 | from 100 on, `addZero(n)` is the first two characters of `n.toString()` (the same as for `n / 10`) |
| LogHeader.AddZeroRoundTrip | src/index.ts:25-28 | below 100, the two characters of `addZero(n)` read back as `n` |
| LogHeader.DHeader | src/server.ts:34-38 | `DHeader`: `"["`, `addZero` of the day, `"/"`, `addZero` of the one-based month, `"]"`; its layout is stated by `HeaderLayout` |
| LogHeader.THeader | src/server.ts:30-32 | `THeader`: `"["`, `addZero` of the hours, `":"`, `addZero` of the minutes, `"]"`; its layout is stated by `HeaderLayout` |
| LogHeader.DateHeader | src/server.ts:39-41 | `getDateHeader`: the date part followed by the time part; `HeaderLayout` gives its 14-character layout and `HeaderRoundTrip` shows it determines the reading |
| LogHeader.HeaderLayout | src/server.ts:30-41 | the header is `"[" dd "/" mm "][" hh ":" mi "]"`: 14 characters, brackets and separators at fixed places, month one-based |
| LogHeader.HeaderRoundTrip | src/server.ts:24-42 | for every calendar reading (day 1-31, month 0-11, hour 0-23, minute 0-59) the header parses back to the same reading |
| Environment.Env.FreshId | src/server.ts:60 | `uuidv4()` returns an identifier never returned before (a counter that only grows) |
| Correlator.Created | src/replyHandler.ts:10-15 | the constructor's state: the given `pID`, no callbacks, the timeout armed, no calls made; `StepsKeepValid` shows it meets the slot invariant and `SendLifetime` starts from it |
| Correlator.AfterCheck | src/replyHandler.ts:16-23 | `checkResolved`: on `orgPID == pID` every resolver is called with the data and the timeout is cleared, otherwise nothing changes; `CheckResolvedSettles` states its outcome for every promise |
| Correlator.AfterTimeout | src/replyHandler.ts:24-26 | `handleTimeout`: every rejecter is called, in order, with "Websocket did not reply"; `TimeoutRejects` states its outcome for every promise |
| Correlator.AfterProm | src/replyHandler.ts:27-32 | a read of `prom`: one resolver and one rejecter pushed for the next promise; `StepsKeepValid` shows the two lists stay aligned slot by slot |
| Correlator.AfterTimer | src/replyHandler.ts:14-19 | the timer's turn: an armed timeout fires once and runs `handleTimeout`, a cleared one does nothing; `NoTimeoutAfterMatch` and `FirstSettlerWins` state its effect |
| Correlator.ResolveAll | src/replyHandler.ts:18 | `onResolve.forEach(res => res(data))`: one call per resolver, in registration order, each with `data` |
| Correlator.RejectAll | src/replyHandler.ts:25 | `onError.forEach(err => err(reason))`: one call per rejecter, in order, each with the reason |
| Correlator.OutcomeAppend | src/replyHandler.ts:27-32 | a promise settles once: calls made after it settled do not change its outcome |
| Correlator.OutcomeOfResolveAll | src/replyHandler.ts:18 | resolving a list of callbacks settles each listed promise with the data and touches no other promise |
| Correlator.OutcomeOfRejectAll | src/replyHandler.ts:25 | rejecting a list of callbacks settles each listed promise as rejected and touches no other promise |
| Correlator.StepsKeepValid | src/replyHandler.ts:10-32 | a new correlator is valid and `prom`, `checkResolved` and the timer keep it valid: both callback lists have equal length, entry k belongs to promise k, nothing is called while armed; a `prom` read adds exactly one resolver |
| Correlator.CheckResolvedSettles | src/replyHandler.ts:16-23 | on a match every resolver runs exactly once, in order, with `p.data`, every unsettled registered promise resolves with it, and the timeout is cleared; on a mismatch nothing changes |
| Correlator.TimeoutRejects | src/replyHandler.ts:24-26 | the armed timeout rejects every registered promise once, in order, with "Websocket did not reply", and does not touch `onResolve` |
| Correlator.NoTimeoutAfterMatch | src/replyHandler.ts:14-19 | once a match has cleared the timeout, the timer's turn changes nothing |
| Correlator.RunExtends | src/replyHandler.ts:10-32 | whatever happens to a correlator, its `pID` stays, no call is forgotten and no callback is dropped |
| Correlator.FirstSettlerWins | src/replyHandler.ts:14-26 | a registered promise of an armed correlator has exactly one outcome, decided by whichever comes first: resolved with the first answering responce's data, rejected if the timer fires first, pending if neither happens |
| Correlator.SendLifetime | src/server.ts:105-108 | the promise `send` returns settles exactly once, by the first of the timeout and a matching responce handed to its `checkResolved` while the handler is still in `awaitingReplys`; the as-written filter can drop the handler before its own responce arrives (`Correlator.PendingRequestLost`) |
| Correlator.ReplyHandler.constructor | src/replyHandler.ts:10-15 | the given `pID`, empty callback lists, the timeout armed, nothing called |
| Correlator.ReplyHandler.CheckResolved | src/replyHandler.ts:16-23 | returns true iff `p.orgPID == pID`; the new state is `AfterCheck` of the old one |
| Correlator.ReplyHandler.HandleTimeout | src/replyHandler.ts:24-26 | the new state is `AfterTimeout` of the old one: every rejecter called with the reason |
| Correlator.ReplyHandler.Prom | src/replyHandler.ts:27-32 | hands out the next promise and appends its resolver and rejecter to both lists |
| Correlator.ReplyHandler.TimerFires | src/replyHandler.ts:14 | the scheduled timeout fires at most once, and not at all once cleared |
| Correlator.KeepAnswered | src/server.ts:79 | the as-written filter: the handlers the packet answers, in order; `KeepAnsweredSpec` states it in both directions and `PendingRequestLost` shows the loss it causes (also src/client.ts:41 and src/index.ts:79) |
| Correlator.FilterAnswered | src/server.ts:79 | calls `checkResolved` on every handler, in order, and returns the handlers that matched (`KeepAnswered`), still distinct |
| Correlator.KeepAnsweredDistinct | src/client.ts:41 | the filtered awaiting list keeps its handlers distinct |
| Correlator.KeepAnsweredSpec | src/server.ts:79 | after a responce the list is the order-preserving sublist of the handlers whose `pID` equals `orgPID`, both directions |
| Correlator.KeepAnsweredNone | src/index.ts:79 | a responce that answers no handler empties the list |
| Correlator.KeepAnsweredAtMostOne | src/server.ts:79 | with distinct request identifiers at most one handler survives a responce |
| Correlator.PendingRequestLost | src/server.ts:79 | as written: with two requests pending, the reply to the first removes the second, whose own reply then finds nothing |
| Correlator.DropAnswered | src/server.ts:79 | the corrected filter: the handlers the packet does not answer, in order; `DropAnsweredSpec` states it in both directions and `PendingRequestKept` shows the pending request survives |
| Correlator.DropAnsweredSpec | src/server.ts:79 | corrected filter: exactly the handlers the packet does not answer stay, in order |
| Correlator.PendingRequestKept | src/server.ts:79 | corrected filter: the second request survives the first reply and is then answered and removed by its own |
| Hub.SetupPacketLogger | src/server.ts:151-172 | logging is on iff a non-empty path is given, and then uses that path; otherwise the path is empty; the older server, src/index.ts:136-153, does the same |
| Hub.LogFor | src/server.ts:189-192 | the lines one frame adds to the log: one line with its direction, local time, connection id and frame when logging is enabled, none otherwise; `Hub.Server.LogOutPacket` and `Hub.Server.Receive` append it |
| Hub.Awaited | src/server.ts:88 | what `await prom.catch(() => { })` yields: the reply data of a resolved promise, `undefined` for a rejected one; `Hub.Client.PingSettled` branches on its truthiness |
| Hub.Find | src/server.ts:195 | `clients.find`: the first connection with the identifier, or none exactly when no connection has it |
| Hub.StampIds | src/server.ts:204-210 | one stamped identifier per registry entry |
| Hub.StampIdAt | src/server.ts:204-210 | the connection at position i is stamped with the identifier after those of the recipients before it |
| Hub.WithoutId | src/server.ts:200 | `clients.filter(c => c.id != clientID)`; `WithoutIdSpec` states it in both directions, `CloseTwice` its idempotence and `WithoutIdDistinct` that it keeps the registry distinct |
| Hub.WithoutIdSpec | src/server.ts:200 | after the filter no connection has the identifier, every other connection stays, and their order is kept |
| Hub.CloseUnknownKeeps | src/server.ts:195-196 | closing an unknown identifier leaves the registry as it is |
| Hub.CloseTwice | src/index.ts:175-182 | `close` is idempotent: afterwards the identifier is unknown and a second filter changes nothing |
| Hub.RecipientsCount | src/server.ts:202-213 | with distinct identifiers a broadcast from a registered origin reaches all connections but one, and from an unknown origin all of them |
| Hub.WithoutIdDistinct | src/server.ts:200 | the filtered registry keeps its connections distinct |
| Hub.Client.constructor | src/server.ts:52-62 | a fresh identifier, the given socket and server, no heartbeat outstanding, latency 0, no awaiting handler |
| Hub.Client.Send | src/server.ts:100-110 | a fresh `pID`, exactly one frame sent and logged; with `withReply` exactly one new handler keyed by it, newly allocated, with its promise taken and its timeout scheduled, whose promise is returned, otherwise the list is unchanged and nothing is returned; the connection changes as `SentOnce` says; the older server, src/index.ts:100-110, does the same |
| Hub.Client.Reply | src/server.ts:111-118 | exactly one `responce` frame with `orgPID = orgPacket.pID` and `data = replyData`, and no new awaiting handler |
| Hub.Client.HandlePacket | src/server.ts:76-83 | a responce filters the list to `KeepAnswered`, with `checkResolved` applied to every old handler; any other event leaves the list and handlers unchanged and goes to the hook; the older server, src/index.ts:76-83, does the same |
| Hub.Client.OnMessage | src/server.ts:64-71 | a frame that does not parse changes nothing; one that parses is dispatched as above |
| Hub.Client.SendPing | src/server.ts:84-88 | with a heartbeat outstanding nothing changes; otherwise the flag is set and exactly one heartbeat carrying the current time is sent and logged with a reply expected, adding one newly allocated handler with its promise taken and its timeout scheduled; the older server, src/index.ts:84-88, does the same |
| Hub.Client.PingSettled | src/server.ts:88-97 | a falsy awaited value (a rejection gives `undefined`) closes the connection as `Hub.Server.Close` does (its socket closed if open, removed from the registry, nothing else changed on any connection) and leaves the flag set; a truthy one stores `now - time`, clears the flag and changes nothing else; the older server, src/index.ts:88-97, does the same |
| Hub.Client.CloseSocket | src/server.ts:197-199 | the socket is closed only if it is open |
| Hub.Client.Broadcast | src/server.ts:119-121 | the server's broadcast from this connection: every other connection is sent to once, in registry order, this one never; with `withReply` each recipient gains one newly allocated handler, promise taken and timeout scheduled, keyed by its stamped identifier; nothing is returned |
| Hub.Server.constructor | src/server.ts:144-150 | an empty registry, an empty log, and the logging configuration of `setupPacketLogger` |
| Hub.Server.MakeConnection | src/server.ts:180-182 | exactly one new connection, appended at the end of the registry; the older server, src/index.ts:161-163, does the same |
| Hub.Server.LogOutPacket | src/server.ts:189-193 | one `[OUT]` line, stamped with the local time, exactly when logging is enabled |
| Hub.Server.Receive | src/server.ts:183-187 | an inbound frame is dispatched as `Hub.Client.OnMessage` does (a responce is checked by every awaiting handler and only the handlers it answers are kept, `handled` unchanged; anything else leaves every handler as it was) and, when logging is enabled, one `[ IN]` line is written |
| Hub.Server.FindClient | src/server.ts:195 | the position of the first connection with the identifier, as `Find` gives it |
| Hub.Server.Close | src/server.ts:194-201 | unknown identifier: nothing changes; otherwise only the first match's socket is closed, and only if open; afterwards the registry is the old one without that identifier, order kept; the older server, src/index.ts:175-182, does the same |
| Hub.FilterOut | src/server.ts:200 | the filter loop computes `WithoutId` |
| Hub.Server.BroadcastLoop | src/server.ts:204-210 | the loop over the registry: per recipient one identifier, one log share, one promise with a reply; every recipient sent to once and the origin left alone; with a reply each recipient's new handler is newly allocated and as `send` leaves it |
| Hub.Server.Broadcast | src/server.ts:202-213 | `send` exactly once on each connection whose identifier is not the origin, in registry order, with consecutive fresh identifiers, never on the origin; the log gets one line per recipient; with `withReply` one promise per recipient and on each recipient one newly allocated handler, promise taken and timeout scheduled, keyed by that recipient's identifier, otherwise nothing |
| Hub.Promises | src/server.ts:208-211 | the collected promises: one per recipient, in order, for consecutive identifiers |
| Endpoint.Emittable | src/client.ts:20-27 | the events the runtime can deliver: `open` only to a connecting socket, `close` once per socket, the reconnect timer only while one is scheduled, `connect` always; `HealthyStep` and `RunHealthy` range over traces of these events |
| Endpoint.LinkStep | src/client.ts:16-27 | `connect` makes a new connecting socket, `open` opens it, `close` closes it and schedules one reconnect, a fired timer connects; an event the runtime cannot deliver changes nothing |
| Endpoint.HealthyStep | src/client.ts:21-24 | the socket's events and the timers keep the loop in order: at most one reconnect scheduled, and one exactly while the socket is closed |
| Endpoint.RunHealthy | src/client.ts:21-24 | after a single `connect`, over any sequence of socket events and timer firings, the reconnect loop stays in that order |
| Endpoint.EveryCloseReconnects | src/client.ts:21-24 | every close is answered by exactly one connection attempt, made or still scheduled |
| Endpoint.ClosedReconnects | src/client.ts:23 | a closed client reconnects when the 500 ms backoff elapses |
| Endpoint.SecondAttempt | src/client.ts:16-24 | a connection that opens and then closes is followed by a second attempt once the backoff elapses |
| Endpoint.WebSocketClient.constructor | src/client.ts:12-15 | stores `url`; no socket and an empty awaiting list |
| Endpoint.WebSocketClient.Connect | src/client.ts:16-19 | a new connecting socket replaces the old one |
| Endpoint.WebSocketClient.OnOpen | src/client.ts:25-27 | the socket is open; nothing else changes |
| Endpoint.WebSocketClient.OnClose | src/client.ts:21-24 | the socket is closed and one more reconnect is scheduled |
| Endpoint.WebSocketClient.BackoffElapsed | src/client.ts:23 | the scheduled `connect` runs: one reconnect fewer scheduled, a new connecting socket |
| Endpoint.WebSocketClient.Send | src/client.ts:48-57 | a fresh `pID` and exactly one frame; with `withReply` exactly one new handler keyed by it and its promise returned, otherwise the list is unchanged; before `connect` the call throws after taking the identifier |
| Endpoint.WebSocketClient.Reply | src/client.ts:58-65 | exactly one `responce` frame with `orgPID = orgPacket.pID` and `data = replyData`, no new handler; throws exactly when there is no socket |
| Endpoint.WebSocketClient.HandlePacket | src/client.ts:38-47 | a responce filters the list to `KeepAnswered`; a heartbeat is answered with a responce carrying its `time` and, with no `break`, also reaches the hook; other events only reach the hook and leave the list unchanged |
| Endpoint.WebSocketClient.OnMessage | src/client.ts:28-36 | a frame that does not parse changes nothing; one that parses is dispatched: a responce is checked by every awaiting handler and only the answered ones are kept; a heartbeat is answered with a responce echoing its `pID` and `time` and then, unless the reply threw, goes to the hook; any other packet goes to the hook |

## Left out

- The `ws` library is not modelled. The socket is a record of its ready state and of every frame handed to `send`. `send` on a socket that is not open records the frame: the library's exception while connecting, and its dropping of frames after close, are not modelled.
- `WebSocket.Server` and `Server.init` (listening, the `connection` event, server errors) are left out. `makeConnection` is called directly.
- `ClientConstruct` and `constructObj` are left out. Application subclasses and their `setupSocket`/`handlePacket` overrides are outside the model; the `handlePacket` hook is recorded as the list `handled`.
- File logging is left out: creating the file, the write stream and `console.log`/`logger` messages. The log is the sequence of lines written. Each line stores its local time; `LogHeader.DateHeader` renders the header from it. The JSON text of the frame is not rendered.
- `uuidv4` is a counter, so identifiers never repeat; the uuid format is not modelled. `Date.now()` and the local date fields are inputs (`Env.clock`).
- `JSON.parse`/`JSON.stringify` are left out. A frame is a packet value or unparsable text.
- Packet values: objects and arrays are not modelled, numbers are integers, and numeric strings coerce to NaN.
- The packet object the caller passed is not mutated: `pID` is set on the stamped copy that is sent.
- `setInterval` and `setTimeout` are events the caller delivers: `SendPing`, `TimerFires`, `BackoffElapsed`. Their delays (the 5000 ms heartbeat rate, the 5000 ms reply timeout, the 500 ms backoff) are not modelled as durations, so the model says which of these events can happen, not when. Clearing the reply timeout is the `armed` flag.
- Promises are callback lists plus the record of calls; `await` is `PingSettled`, given the outcome.
- Endpoint.LinkStep: the socket's `error` event is not modelled. src/client.ts:20-37 registers no `error` listener, so a connect that fails emits `error` with no listener and the program throws before the `close` that would schedule a reconnect. The model lets a connecting socket close and reconnect; `Endpoint.SecondAttempt` therefore states the reconnect after a connection that opened.
- Endpoint.WebSocketClient.OnClose: models the close event of the current socket only. After a second `connect` the replaced socket keeps its listeners, and its later close would also schedule a reconnect; that is not modelled.
- Endpoint.WebSocketClient.OnMessage: a message is handled on the current socket. A message still arriving on a replaced socket is not told apart.
- src/test, dist and the `.d.ts` declarations are not part of this model: they repeat src or only wire it to a live port.

## Findings

| source | as written | input that shows it | evidently intended | confidence | as-written member | corrected member |
|---|---|---|---|---|---|---|
| src/server.ts:79 (also src/client.ts:41, src/index.ts:79) | `awaitingReplys.filter(repl => repl.checkResolved(packet))` keeps the handlers the responce answers and drops every other handler | requests `a` and `b` awaiting replies; the responce to `a` arrives first: `b` leaves the list, and `b`'s own responce later finds no handler, so `b`'s promise can only be rejected by its timeout | remove the answered handler and keep the pending ones | not executed | Correlator.PendingRequestLost | Correlator.PendingRequestKept |

=== FILE: correlator.dfy ===
/** The reply correlator (`ReplyHandler`): one per request sent with a reply
    expected.  It holds the request's `pID`, the resolve and reject callbacks
    of every promise handed out for it, and a 5000 ms timeout.

    The timer is the flag `armed`; the promises are identified by
    `PromiseRef(request, slot)`, the promise handed out by the `slot`-th
    read of `prom`; `calls` records, in order, every callback invocation.
    A promise settles on the first call made to it, later calls are ignored,
    so its outcome is the first entry of `calls` that names it. */
module Correlator {
  import opened Packets
  import opened Sequences

  /** The reason every rejecter receives. */
  const NO_REPLY: string := "Websocket did not reply"

  datatype PromiseRef = PromiseRef(request: Id, slot: nat)

  datatype Call =
    | Resolved(promise: PromiseRef, data: Value)
    | Rejected(promise: PromiseRef, reason: string)

  /** The state of a correlator as a value. */
  datatype Handler = Handler(
    pID: Id,
    onResolve: seq<PromiseRef>,
    onError: seq<PromiseRef>,
    armed: bool,
    calls: seq<Call>)

  /* ---------------- The correlator as functions on its state ---------------- */

  /** The constructor: no callbacks, timeout armed. */
  function Created(pID: Id): Handler
  {
    Handler(pID, [], [], true, [])
  }

  /** The match test of `checkResolved`: the packet answers request `pID`. */
  predicate Answers(p: Packet, pID: Id)
  {
    OrgPID(p) == Some(pID)
  }

  /** Calling each callback of `cbs`, in order, with `data`. */
  function ResolveAll(cbs: seq<PromiseRef>, data: Value): (r: seq<Call>)
    ensures |r| == |cbs|
    ensures forall k :: 0 <= k < |cbs| ==> r[k] == Resolved(cbs[k], data)
  {
    seq(|cbs|, k requires 0 <= k < |cbs| => Resolved(cbs[k], data))
  }

  /** Calling each callback of `cbs`, in order, with `reason`. */
  function RejectAll(cbs: seq<PromiseRef>, reason: string): (r: seq<Call>)
    ensures |r| == |cbs|
    ensures forall k :: 0 <= k < |cbs| ==> r[k] == Rejected(cbs[k], reason)
  {
    seq(|cbs|, k requires 0 <= k < |cbs| => Rejected(cbs[k], reason))
  }

  /** `checkResolved(p)`: on a match every resolver is called with the
      packet's data and the timeout is cleared; otherwise nothing happens. */
  function AfterCheck(h: Handler, p: Packet): Handler
  {
    if Answers(p, h.pID)
    then h.(calls := h.calls + ResolveAll(h.onResolve, Data(p)), armed := false)
    else h
  }

  /** `handleTimeout()`: every rejecter is called with `NO_REPLY`. */
  function AfterTimeout(h: Handler): Handler
  {
    h.(calls := h.calls + RejectAll(h.onError, NO_REPLY))
  }

  /** The promise the next read of `prom` hands out. */
  function NextPromise(h: Handler): PromiseRef
  {
    PromiseRef(h.pID, |h.onResolve|)
  }

  /** A read of `prom`: the new promise's resolver and rejecter are pushed. */
  function AfterProm(h: Handler): Handler
  {
    h.(onResolve := h.onResolve + [NextPromise(h)], onError := h.onError + [NextPromise(h)])
  }

  /** The timer's turn: a cleared (or already fired) timeout does nothing;
      an armed one fires once and runs `handleTimeout`. */
  function AfterTimer(h: Handler): Handler
  {
    if h.armed then AfterTimeout(h.(armed := false)) else h
  }

  /** How promise `pr` settled, given the calls made so far. */
  function Outcome(calls: seq<Call>, pr: PromiseRef): Option<Call>
  {
    if calls == [] then None
    else if calls[0].promise == pr then Some(calls[0])
    else Outcome(calls[1..], pr)
  }

  /** The invariant of a correlator: the k-th entries of both callback lists
      belong to the k-th promise, and nothing has been called while the
      timeout is still armed. */
  ghost predicate Valid(h: Handler)
  {
    && |h.onResolve| == |h.onError|
    && (forall k :: 0 <= k < |h.onResolve| ==> h.onResolve[k] == PromiseRef(h.pID, k))
    && (forall k :: 0 <= k < |h.onError| ==> h.onError[k] == PromiseRef(h.pID, k))
    && (h.armed ==> h.calls == [])
  }

  /* ---------------- Properties of one step ---------------- */

  /** The settled outcome of a promise never changes: later calls are
      ignored. */
  lemma {:induction false} OutcomeAppend(c1: seq<Call>, c2: seq<Call>, pr: PromiseRef)
    ensures Outcome(c1 + c2, pr) == if Outcome(c1, pr).Some? then Outcome(c1, pr) else Outcome(c2, pr)
  {
    if c1 != [] {
      assert (c1 + c2)[0] == c1[0];
      assert (c1 + c2)[1..] == c1[1..] + c2;
      OutcomeAppend(c1[1..], c2, pr);
    } else {
      assert c1 + c2 == c2;
    }
  }

  /** A promise given a callback in `cbs` settles with `data` on the first of
      them; one not in `cbs` is not touched. */
  lemma {:induction false} OutcomeOfResolveAll(cbs: seq<PromiseRef>, data: Value, pr: PromiseRef)
    ensures Outcome(ResolveAll(cbs, data), pr) == if pr in cbs then Some(Resolved(pr, data)) else None
  {
    if cbs != [] {
      assert ResolveAll(cbs, data)[1..] == ResolveAll(cbs[1..], data);
      OutcomeOfResolveAll(cbs[1..], data, pr);
    }
  }

  /** Likewise for rejection. */
  lemma {:induction false} OutcomeOfRejectAll(cbs: seq<PromiseRef>, reason: string, pr: PromiseRef)
    ensures Outcome(RejectAll(cbs, reason), pr) == if pr in cbs then Some(Rejected(pr, reason)) else None
  {
    if cbs != [] {
      assert RejectAll(cbs, reason)[1..] == RejectAll(cbs[1..], reason);
      OutcomeOfRejectAll(cbs[1..], reason, pr);
    }
  }

  /** A new correlator satisfies the invariant and every step keeps it:
      in particular the two callback lists always have equal length. */
  lemma StepsKeepValid(h: Handler, p: Packet)
    requires Valid(h)
    ensures Valid(Created(h.pID))
    ensures Valid(AfterProm(h)) && |AfterProm(h).onResolve| == |h.onResolve| + 1
    ensures Valid(AfterCheck(h, p))
    ensures Valid(AfterTimer(h))
  {
  }

  /** `checkResolved` returns true exactly when `p.orgPID == pID`.  On a
      match, the k-th new call resolves the k-th promise with `p.data`, so
      every registered resolver runs once and in registration order; every
      registered promise not settled before now settles with that data; the
      timeout is cleared; the callback lists are kept.  On a mismatch nothing
      changes. */
  lemma CheckResolvedSettles(h: Handler, p: Packet, pr: PromiseRef)
    requires Valid(h)
    ensures var h' := AfterCheck(h, p);
      && h'.pID == h.pID && h'.onResolve == h.onResolve && h'.onError == h.onError
      && (Answers(p, h.pID) ==>
            && !h'.armed
            && |h'.calls| == |h.calls| + |h.onResolve|
            && (forall k :: 0 <= k < |h.onResolve| ==>
                  h'.calls[|h.calls| + k] == Resolved(PromiseRef(h.pID, k), Data(p)))
            && (pr in h.onResolve && Outcome(h.calls, pr).None? ==>
                  Outcome(h'.calls, pr) == Some(Resolved(pr, Data(p)))))
      && (!Answers(p, h.pID) ==> h' == h)
  {
    if Answers(p, h.pID) {
      OutcomeAppend(h.calls, ResolveAll(h.onResolve, Data(p)), pr);
      OutcomeOfResolveAll(h.onResolve, Data(p), pr);
    }
  }

  /** When the armed timeout fires, every rejecter runs once, in order, with
      `NO_REPLY`, every registered promise settles as rejected, and the
      resolvers are not touched. */
  lemma TimeoutRejects(h: Handler, pr: PromiseRef)
    requires Valid(h) && h.armed
    ensures var h' := AfterTimer(h);
      && !h'.armed && h'.onResolve == h.onResolve && h'.onError == h.onError
      && |h'.calls| == |h.onError|
      && (forall k :: 0 <= k < |h.onError| ==> h'.calls[k] == Rejected(PromiseRef(h.pID, k), NO_REPLY))
      && (pr in h.onError ==> Outcome(h'.calls, pr) == Some(Rejected(pr, NO_REPLY)))
  {
    assert h.calls + RejectAll(h.onError, NO_REPLY) == RejectAll(h.onError, NO_REPLY);
    OutcomeOfRejectAll(h.onError, NO_REPLY, pr);
  }

  /** Once a match has cleared the timeout, the timer can no longer reject. */
  lemma NoTimeoutAfterMatch(h: Handler, p: Packet)
    requires Answers(p, h.pID)
    ensures !AfterCheck(h, p).armed
    ensures AfterTimer(AfterCheck(h, p)) == AfterCheck(h, p)
  {
  }

  /* ---------------- Whole lifetimes ---------------- */

  /** What can happen to a correlator: a read of `prom`, an incoming
      responce handed to `checkResolved`, or the timer's turn. */
  datatype Stimulus = Read | Reply(p: Packet) | Tick

  function Apply(h: Handler, s: Stimulus): Handler
  {
    match s
    case Read => AfterProm(h)
    case Reply(p) => AfterCheck(h, p)
    case Tick => AfterTimer(h)
  }

  function Run(h: Handler, ss: seq<Stimulus>): Handler
    decreases |ss|
  {
    if ss == [] then h else Run(Apply(h, ss[0]), ss[1..])
  }

  /** The first stimulus that can settle request `pID`: the timer, or a
      responce that answers it. */
  function FirstSettler(pID: Id, ss: seq<Stimulus>): Option<Stimulus>
    decreases |ss|
  {
    if ss == [] then None
    else match ss[0]
      case Tick => Some(Tick)
      case Reply(p) => if Answers(p, pID) then Some(ss[0]) else FirstSettler(pID, ss[1..])
      case Read => FirstSettler(pID, ss[1..])
  }

  /** The outcome that settling stimulus gives promise `pr`. */
  function SettledBy(pr: PromiseRef, s: Option<Stimulus>): Option<Call>
  {
    match s
    case None => None
    case Some(Tick) => Some(Rejected(pr, NO_REPLY))
    case Some(Reply(p)) => Some(Resolved(pr, Data(p)))
    case Some(Read) => None
  }

  /** A run never forgets a call, never changes the request identifier and
      never drops a callback. */
  lemma {:induction false} RunExtends(h: Handler, ss: seq<Stimulus>)
    ensures Run(h, ss).pID == h.pID
    ensures |h.calls| <= |Run(h, ss).calls| && Run(h, ss).calls[..|h.calls|] == h.calls
    ensures forall pr :: pr in h.onResolve ==> pr in Run(h, ss).onResolve
    ensures forall pr :: pr in h.onError ==> pr in Run(h, ss).onError
    decreases |ss|
  {
    if ss != [] {
      var h1 := Apply(h, ss[0]);
      RunExtends(h1, ss[1..]);
      assert h1.calls[..|h.calls|] == h.calls;
    }
  }

  /** Exactly one outcome, decided by whichever comes first: for a
      registered promise of a correlator whose timeout is still armed, the
      promise resolves with the data of the first answering responce if that
      arrives before the timer fires, is rejected if the timer fires first,
      and stays pending if neither happens. */
  lemma {:induction false} FirstSettlerWins(h: Handler, ss: seq<Stimulus>, pr: PromiseRef)
    requires h.armed && h.calls == []
    requires pr in h.onResolve && pr in h.onError
    ensures Outcome(Run(h, ss).calls, pr) == SettledBy(pr, FirstSettler(h.pID, ss))
    decreases |ss|
  {
    if ss != [] {
      var h1 := Apply(h, ss[0]);
      RunExtends(h1, ss[1..]);
      var tail := Run(h1, ss[1..]).calls[|h1.calls|..];
      assert Run(h1, ss[1..]).calls == h1.calls + tail;
      match ss[0]
      case Read =>
        FirstSettlerWins(h1, ss[1..], pr);
      case Reply(p) =>
        if Answers(p, h.pID) {
          assert h1.calls == ResolveAll(h.onResolve, Data(p));
          OutcomeOfResolveAll(h.onResolve, Data(p), pr);
          OutcomeAppend(h1.calls, tail, pr);
        } else {
          FirstSettlerWins(h1, ss[1..], pr);
        }
      case Tick =>
        assert h1.calls == RejectAll(h.onError, NO_REPLY);
        OutcomeOfRejectAll(h.onError, NO_REPLY, pr);
        OutcomeAppend(h1.calls, tail, pr);
    }
  }

  /** The lifetime the senders give a correlator: created, its promise read
      once, then any mix of responces and timer turns handed to it.  The
      promise settles exactly once, by the first of the timeout and a
      matching responce handed to its `checkResolved` while it is still in
      `awaitingReplys`. */
  lemma SendLifetime(pID: Id, ss: seq<Stimulus>)
    ensures var pr := PromiseRef(pID, 0);
      Outcome(Run(AfterProm(Created(pID)), ss).calls, pr) == SettledBy(pr, FirstSettler(pID, ss))
  {
    FirstSettlerWins(AfterProm(Created(pID)), ss, PromiseRef(pID, 0));
  }

  /* ---------------- The correlator object ---------------- */

  class ReplyHandler {
    const pID: Id
    var onResolve: seq<PromiseRef>
    var onError: seq<PromiseRef>
    /** The 5000 ms timeout is scheduled and neither cleared nor fired. */
    var armed: bool
    var calls: seq<Call>

    function State(): Handler
      reads this
    {
      Handler(pID, onResolve, onError, armed, calls)
    }

    constructor (pID: Id)
      ensures State() == Created(pID)
    {
      this.pID := pID;
      onResolve := [];
      onError := [];
      armed := true;
      calls := [];
    }

    method CheckResolved(p: Packet) returns (matched: bool)
      modifies this
      ensures matched <==> Answers(p, pID)
      ensures State() == AfterCheck(old(State()), p)
    {
      if OrgPID(p) == Some(pID) {
        var data := Data(p);
        var i := 0;
        while i < |onResolve|
          invariant 0 <= i <= |onResolve|
          invariant onResolve == old(onResolve) && onError == old(onError) && armed == old(armed)
          invariant calls == old(calls) + ResolveAll(onResolve[..i], data)
        {
          calls := calls + [Resolved(onResolve[i], data)];
          i := i + 1;
        }
        assert onResolve[..i] == onResolve;
        armed := false;
        matched := true;
      } else {
        matched := false;
      }
    }

    method HandleTimeout()
      modifies this
      ensures State() == AfterTimeout(old(State()))
    {
      var i := 0;
      while i < |onError|
        invariant 0 <= i <= |onError|
        invariant onResolve == old(onResolve) && onError == old(onError) && armed == old(armed)
        invariant calls == old(calls) + RejectAll(onError[..i], NO_REPLY)
      {
        calls := calls + [Rejected(onError[i], NO_REPLY)];
        i := i + 1;
      }
      assert onError[..i] == onError;
    }

    /** The `prom` getter. */
    method Prom() returns (pr: PromiseRef)
      modifies this
      ensures pr == NextPromise(old(State()))
      ensures State() == AfterProm(old(State()))
    {
      pr := PromiseRef(pID, |onResolve|);
      onResolve := onResolve + [pr];
      onError := onError + [pr];
    }

    /** The scheduled timeout callback gets its turn. */
    method TimerFires()
      modifies this
      ensures State() == AfterTimer(old(State()))
    {
      if armed {
        armed := false;
        HandleTimeout();
      }
    }
  }

  /* ---------------- The awaiting list ---------------- */

  /** `awaitingReplys.filter(repl => repl.checkResolved(packet))`: the
      handlers that the packet answers, in their order. */
  function KeepAnswered(hs: seq<ReplyHandler>, p: Packet): seq<ReplyHandler>
    decreases |hs|
  {
    if hs == [] then []
    else KeepAnswered(hs[..|hs| - 1], p) + (if Answers(p, hs[|hs| - 1].pID) then [hs[|hs| - 1]] else [])
  }

  /** A filtered awaiting list keeps its handlers distinct. */
  lemma {:induction false} KeepAnsweredDistinct(hs: seq<ReplyHandler>, p: Packet)
    requires Distinct(hs)
    ensures Distinct(KeepAnswered(hs, p))
    decreases |hs|
  {
    if hs != [] {
      var init, last := hs[..|hs| - 1], hs[|hs| - 1];
      KeepAnsweredDistinct(init, p);
      KeepAnsweredSpec(init, p);
      assert last !in init by {
        forall k | 0 <= k < |init| ensures init[k] != last {
          assert hs[k] == init[k];
        }
      }
      var before := KeepAnswered(init, p);
      assert hs == init + [last];
      var r := KeepAnswered(hs, p);
      if Answers(p, last.pID) {
        assert r == before + [last];
        forall i, j | 0 <= i < j < |r|
          ensures r[i] != r[j]
        {
          assert r[i] == before[i] && before[i] in before;
          if j < |r| - 1 {
            assert r[j] == before[j];
          }
        }
      } else {
        assert r == before;
      }
    }
  }

  /** The `filter` call itself: `checkResolved` on every handler, in
      order, keeping the handlers that matched. */
  method FilterAnswered(hs: seq<ReplyHandler>, p: Packet) returns (kept: seq<ReplyHandler>)
    requires Distinct(hs)
    modifies set h | h in hs
    ensures kept == KeepAnswered(hs, p) && Distinct(kept)
    ensures forall h :: h in hs ==> h.State() == AfterCheck(old(h.State()), p)
  {
    kept := [];
    var i := 0;
    while i < |hs|
      invariant 0 <= i <= |hs|
      invariant kept == KeepAnswered(hs[..i], p)
      invariant forall k :: 0 <= k < i ==> hs[k].State() == AfterCheck(old(hs[k].State()), p)
      invariant forall k :: i <= k < |hs| ==> hs[k].State() == old(hs[k].State())
    {
      var matched := hs[i].CheckResolved(p);
      if matched {
        kept := kept + [hs[i]];
      }
      assert hs[..i + 1][..i] == hs[..i];
      i := i + 1;
    }
    assert hs[..i] == hs;
    KeepAnsweredDistinct(hs, p);
  }

  /** The handlers whose `pID` are pairwise distinct, as fresh identifiers
      make them. */
  predicate DistinctRequests(hs: seq<ReplyHandler>)
  {
    forall i, j :: 0 <= i < j < |hs| ==> hs[i].pID != hs[j].pID
  }

  /** After a responce the list holds exactly the handlers it answers, in
      their old order. */
  lemma {:induction false} KeepAnsweredSpec(hs: seq<ReplyHandler>, p: Packet)
    ensures forall h :: h in KeepAnswered(hs, p) ==> h in hs && Answers(p, h.pID)
    ensures forall h :: h in hs && Answers(p, h.pID) ==> h in KeepAnswered(hs, p)
    ensures Subsequence(KeepAnswered(hs, p), hs)
    decreases |hs|
  {
    if hs != [] {
      var init, last := hs[..|hs| - 1], hs[|hs| - 1];
      KeepAnsweredSpec(init, p);
      assert hs == init + [last];
      var s := KeepAnswered(hs, p);
      if Answers(p, last.pID) {
        assert s == KeepAnswered(init, p) + [last];
        assert s[..|s| - 1] == KeepAnswered(init, p);
      } else {
        assert s == KeepAnswered(init, p);
      }
    }
  }

  /** No handler survives a responce that answers none of them. */
  lemma {:induction false} KeepAnsweredNone(hs: seq<ReplyHandler>, p: Packet)
    requires forall h :: h in hs ==> !Answers(p, h.pID)
    ensures KeepAnswered(hs, p) == []
    decreases |hs|
  {
    if hs != [] {
      KeepAnsweredNone(hs[..|hs| - 1], p);
    }
  }

  /** With distinct request identifiers at most one handler survives a
      responce. */
  lemma {:induction false} KeepAnsweredAtMostOne(hs: seq<ReplyHandler>, p: Packet)
    requires DistinctRequests(hs)
    ensures |KeepAnswered(hs, p)| <= 1
    decreases |hs|
  {
    if hs != [] {
      var init, last := hs[..|hs| - 1], hs[|hs| - 1];
      if Answers(p, last.pID) {
        forall h | h in init
          ensures !Answers(p, h.pID)
        {
          var i :| 0 <= i < |init| && init[i] == h;
          assert hs[i] == h;
        }
        KeepAnsweredNone(init, p);
      } else {
        assert DistinctRequests(init);
        KeepAnsweredAtMostOne(init, p);
      }
    }
  }

  /** The filter as written drops a request that is still pending: when the
      reply to `a` arrives first, `b` leaves the list, and `b`'s own reply
      then finds nothing to resolve (its promise can only be rejected by its
      timer). */
  lemma PendingRequestLost(a: ReplyHandler, b: ReplyHandler, p: Packet, q: Packet)
    requires a.pID != b.pID && Answers(p, a.pID) && Answers(q, b.pID)
    ensures KeepAnswered([a, b], p) == [a]
    ensures KeepAnswered(KeepAnswered([a, b], p), q) == []
  {
    assert [a, b][..1] == [a];
    assert [a][..0] == [];
    assert KeepAnswered([a], p) == [a];
    assert KeepAnswered([a], q) == [];
  }

  /** The filter the correlation protocol calls for: the handlers the packet
      answers leave the list, the others stay. */
  function DropAnswered(hs: seq<ReplyHandler>, p: Packet): seq<ReplyHandler>
    decreases |hs|
  {
    if hs == [] then []
    else DropAnswered(hs[..|hs| - 1], p) + (if Answers(p, hs[|hs| - 1].pID) then [] else [hs[|hs| - 1]])
  }

  /** With the corrected filter every pending request stays, in order, until
      its own responce removes it, so a later reply still finds its handler. */
  lemma {:induction false} DropAnsweredSpec(hs: seq<ReplyHandler>, p: Packet)
    ensures forall h :: h in DropAnswered(hs, p) ==> h in hs && !Answers(p, h.pID)
    ensures forall h :: h in hs && !Answers(p, h.pID) ==> h in DropAnswered(hs, p)
    ensures Subsequence(DropAnswered(hs, p), hs)
    decreases |hs|
  {
    if hs != [] {
      var init, last := hs[..|hs| - 1], hs[|hs| - 1];
      DropAnsweredSpec(init, p);
      assert hs == init + [last];
      var s := DropAnswered(hs, p);
      if !Answers(p, last.pID) {
        assert s == DropAnswered(init, p) + [last];
        assert s[..|s| - 1] == DropAnswered(init, p);
      } else {
        assert s == DropAnswered(init, p);
      }
    }
  }

  /** The situation of `PendingRequestLost` under the corrected filter: `b`
      survives `a`'s reply and is then answered by its own. */
  lemma PendingRequestKept(a: ReplyHandler, b: ReplyHandler, p: Packet, q: Packet)
    requires a.pID != b.pID && Answers(p, a.pID) && Answers(q, b.pID)
    ensures DropAnswered([a, b], p) == [b]
    ensures KeepAnswered(DropAnswered([a, b], p), q) == [b]
    ensures DropAnswered(DropAnswered([a, b], p), q) == []
  {
    assert [a, b][..1] == [a];
    assert [a][..0] == [];
    assert [b][..0] == [];
    assert DropAnswered([a], p) == [];
    assert DropAnswered([b], q) == [];
    assert KeepAnswered([b], q) == [b];
  }
}

=== FILE: endpoint.dfy ===
/** The client side (src/client.ts): a `WebSocketClient` that connects to
    a url, reconnects 500 ms after every close, sends packets with an
    optional awaited reply, and answers heartbeats.

    The socket's events (`open`, `close`, `message`) and the firing of the
    reconnect timer are methods the runtime calls.  The lifecycle of the
    connection is also given as a value, `Link`, with a step function per
    event; every event method moves the object exactly as that function
    says, and the lemmas about whole event traces are stated on it. */
module Endpoint {
  import opened Packets
  import opened Environment
  import opened Correlator
  import opened Sequences

  /* ---------------- The lifecycle as a value ---------------- */

  /** The state of the current socket (`None` before the first `connect`),
      the reconnect timers scheduled and not yet fired, and the number of
      sockets created so far. */
  datatype Link = Link(state: Option<ReadyState>, pending: nat, attempts: nat)

  /** What can happen to a client: the application calls `connect`, the
      socket reports `open` or `close`, a reconnect timer fires. */
  datatype LinkEvent = UserConnect | SocketOpened | SocketClosed | TimerFired

  /** A client before its first `connect`. */
  const Unconnected: Link := Link(None, 0, 0)

  /** The events the runtime can deliver in `l`: `open` only to a
      connecting socket, `close` only once per socket, a timer only when
      one is scheduled.  The application may call `connect` at any time. */
  predicate Emittable(l: Link, e: LinkEvent)
  {
    match e
    case UserConnect => true
    case SocketOpened => l.state == Some(Connecting)
    case SocketClosed => l.state.Some? && l.state.value != Closed
    case TimerFired => l.pending > 0
  }

  /** One event: `connect` creates a new connecting socket; `open` marks it
      open; `close` marks it closed and schedules one reconnect; a timer
      that fires calls `connect`.  An event the runtime cannot deliver
      changes nothing. */
  function LinkStep(l: Link, e: LinkEvent): (r: Link)
    ensures Emittable(l, e) || r == l
  {
    if !Emittable(l, e) then l
    else match e
      case UserConnect => Link(Some(Connecting), l.pending, l.attempts + 1)
      case SocketOpened => l.(state := Some(Open))
      case SocketClosed => Link(Some(Closed), l.pending + 1, l.attempts)
      case TimerFired => Link(Some(Connecting), l.pending - 1, l.attempts + 1)
  }

  /** The client after the events `es`, in order. */
  function Run(l: Link, es: seq<LinkEvent>): Link
    decreases |es|
  {
    if es == [] then l else Run(LinkStep(l, es[0]), es[1..])
  }

  /** Every event of `es` can be delivered when its turn comes. */
  predicate Feasible(l: Link, es: seq<LinkEvent>)
    decreases |es|
  {
    es == [] || (Emittable(l, es[0]) && Feasible(LinkStep(l, es[0]), es[1..]))
  }

  /** How many events of `es` are `e`. */
  function Count(es: seq<LinkEvent>, e: LinkEvent): nat
    decreases |es|
  {
    if es == [] then 0 else (if es[0] == e then 1 else 0) + Count(es[1..], e)
  }

  /** The reconnect loop is in order: at most one reconnect is scheduled,
      one is scheduled exactly when the socket is closed, and nothing
      exists before the first `connect`. */
  predicate Healthy(l: Link)
  {
    && l.pending <= 1
    && (l.pending == 1 <==> l.state == Some(Closed))
    && (l.state.None? ==> l.attempts == 0)
  }

  /** The runtime's events keep the reconnect loop in order. */
  lemma HealthyStep(l: Link, e: LinkEvent)
    requires Healthy(l) && e != UserConnect
    ensures Healthy(LinkStep(l, e))
  {
  }

  /** A client the application connects once, whatever the socket and the
      timers do afterwards, never has two reconnects scheduled, and is
      closed exactly while one is. */
  lemma {:induction false} RunHealthy(l: Link, es: seq<LinkEvent>)
    requires Healthy(l) && Count(es, UserConnect) == 0
    ensures Healthy(Run(l, es))
    decreases |es|
  {
    if es != [] {
      HealthyStep(l, es[0]);
      RunHealthy(LinkStep(l, es[0]), es[1..]);
    }
  }

  /** Every close is answered by exactly one connection attempt, made or
      still scheduled: the attempts plus the scheduled reconnects grow by
      one per `connect` call and one per close, and by nothing else. */
  lemma {:induction false} EveryCloseReconnects(l: Link, es: seq<LinkEvent>)
    requires Feasible(l, es)
    ensures Run(l, es).attempts + Run(l, es).pending
         == l.attempts + l.pending + Count(es, UserConnect) + Count(es, SocketClosed)
    decreases |es|
  {
    if es != [] {
      EveryCloseReconnects(LinkStep(l, es[0]), es[1..]);
    }
  }

  /** A closed client that follows the loop reconnects when the backoff
      elapses: a new connecting socket, and no reconnect left scheduled. */
  lemma ClosedReconnects(l: Link)
    requires Healthy(l) && l.state == Some(Closed)
    ensures LinkStep(l, TimerFired) == Link(Some(Connecting), 0, l.attempts + 1)
  {
  }

  /** A connection that opens and later closes is followed, once the
      backoff elapses, by a second attempt. */
  lemma SecondAttempt()
    ensures Feasible(Unconnected, [UserConnect, SocketOpened, SocketClosed, TimerFired])
    ensures Run(Unconnected, [UserConnect, SocketOpened, SocketClosed, TimerFired]) == Link(Some(Connecting), 0, 2)
  {
    var l1 := LinkStep(Unconnected, UserConnect);
    var l2 := LinkStep(l1, SocketOpened);
    var l3 := LinkStep(l2, SocketClosed);
    assert l1 == Link(Some(Connecting), 0, 1);
    assert l2 == Link(Some(Open), 0, 1);
    assert l3 == Link(Some(Closed), 1, 1);
    assert Run(l3, [TimerFired]) == LinkStep(l3, TimerFired) by {
      assert [TimerFired][1..] == [];
    }
    assert Feasible(l3, [TimerFired]) by {
      assert [TimerFired][1..] == [];
    }
    assert [UserConnect, SocketOpened, SocketClosed, TimerFired][1..] == [SocketOpened, SocketClosed, TimerFired];
    assert [SocketOpened, SocketClosed, TimerFired][1..] == [SocketClosed, TimerFired];
    assert [SocketClosed, TimerFired][1..] == [TimerFired];
  }

  /* ---------------- The client object ---------------- */

  /** What `send` does for its caller: it returns the reply promise (or
      nothing), or it throws. */
  datatype SendOutcome = Returned(promise: Option<PromiseRef>) | Threw

  class WebSocketClient {
    const url: string
    /** Undefined until the first `connect`. */
    var socket: Option<Socket>
    var awaitingReplys: seq<ReplyHandler>
    /** The packets handed to the application's `handlePacket` hook. */
    var handled: seq<Packet>
    /** Reconnect timers scheduled by a close and not yet fired. */
    ghost var pendingReconnects: nat
    /** Sockets created by `connect` so far. */
    ghost var attempts: nat

    /** The lifecycle of this client as a value. */
    ghost function Lifecycle(): Link
      reads this
    {
      Link(if socket.Some? then Some(socket.value.state) else None, pendingReconnects, attempts)
    }

    /** Every awaiting handler is a distinct object. */
    ghost predicate Valid()
      reads this
    {
      Distinct(awaitingReplys)
    }

    constructor (url: string)
      ensures this.url == url && socket == None && awaitingReplys == [] && handled == []
      ensures Lifecycle() == Unconnected && Valid()
    {
      this.url := url;
      socket := None;
      awaitingReplys := [];
      handled := [];
      pendingReconnects := 0;
      attempts := 0;
    }

    /** `connect`: a new socket to `url` replaces the old one; it starts
        out connecting, with nothing sent. */
    method Connect()
      modifies this`socket, this`attempts
      ensures socket == Some(Socket(Connecting, []))
      ensures Lifecycle() == LinkStep(old(Lifecycle()), UserConnect)
    {
      socket := Some(Socket(Connecting, []));
      attempts := attempts + 1;
    }

    /** The socket's `open` event: only logged; the socket is open. */
    method OnOpen()
      requires Emittable(Lifecycle(), SocketOpened)
      modifies this`socket
      ensures socket == Some(old(socket.value).(state := Open))
      ensures Lifecycle() == LinkStep(old(Lifecycle()), SocketOpened)
    {
      socket := Some(socket.value.(state := Open));
    }

    /** The socket's `close` event: the socket is closed and `connect` is
        scheduled `RECONNECT_DELAY` ms later. */
    method OnClose()
      requires Emittable(Lifecycle(), SocketClosed)
      modifies this`socket, this`pendingReconnects
      ensures socket == Some(old(socket.value).(state := Closed))
      ensures pendingReconnects == old(pendingReconnects) + 1
      ensures Lifecycle() == LinkStep(old(Lifecycle()), SocketClosed)
    {
      socket := Some(socket.value.(state := Closed));
      pendingReconnects := pendingReconnects + 1;
    }

    /** A reconnect timer fires: it calls `connect`. */
    method BackoffElapsed()
      requires Emittable(Lifecycle(), TimerFired)
      modifies this`socket, this`attempts, this`pendingReconnects
      ensures socket == Some(Socket(Connecting, []))
      ensures Lifecycle() == LinkStep(old(Lifecycle()), TimerFired)
    {
      pendingReconnects := pendingReconnects - 1;
      Connect();
    }

    /** `send(packet, withReply)`: stamp a fresh `pID` and emit exactly one
        frame; with `withReply` append one handler keyed by that `pID` and
        return its promise.  Before the first `connect` the socket is
        undefined: the `pID` is taken, then the call throws and nothing
        else changes. */
    method Send(packet: Packet, withReply: bool, env: Env) returns (r: SendOutcome)
      requires Valid()
      modifies this`socket, this`awaitingReplys, env`nextId
      ensures Valid()
      ensures env.nextId == old(env.nextId) + 1
      ensures old(socket).None? ==> r == Threw && socket == None && awaitingReplys == old(awaitingReplys)
      ensures old(socket).Some? ==>
        socket == Some(old(socket.value).(sent := old(socket.value.sent) + [Json(Stamp(packet, old(env.nextId)))]))
      ensures old(socket).Some? && withReply ==>
        && |awaitingReplys| == |old(awaitingReplys)| + 1
        && awaitingReplys[..|old(awaitingReplys)|] == old(awaitingReplys)
        && fresh(awaitingReplys[|old(awaitingReplys)|])
        && awaitingReplys[|old(awaitingReplys)|].State() == AfterProm(Created(old(env.nextId)))
        && r == Returned(Some(PromiseRef(old(env.nextId), 0)))
      ensures old(socket).Some? && !withReply ==> awaitingReplys == old(awaitingReplys) && r == Returned(None)
    {
      var pid := env.FreshId();
      if socket.None? {
        return Threw;
      }
      socket := Some(socket.value.(sent := socket.value.sent + [Json(Stamp(packet, pid))]));
      if withReply {
        var handler := new ReplyHandler(pid);
        var pr := handler.Prom();
        awaitingReplys := awaitingReplys + [handler];
        r := Returned(Some(pr));
      } else {
        r := Returned(None);
      }
    }

    /** `reply(orgPacket, replyData)`: one `responce` frame answering
        `orgPacket`, with no handler awaiting it.  Whether `send` threw is
        returned. */
    method Reply(orgPacket: Packet, replyData: Value, env: Env) returns (threw: bool)
      requires Valid()
      modifies this`socket, this`awaitingReplys, env`nextId
      ensures Valid()
      ensures env.nextId == old(env.nextId) + 1
      ensures awaitingReplys == old(awaitingReplys)
      ensures threw <==> old(socket).None?
      ensures old(socket).None? ==> socket == None
      ensures old(socket).Some? ==>
        socket == Some(old(socket.value).(sent := old(socket.value.sent)
                         + [Json(Responce(Some(old(env.nextId)), orgPacket.pID, replyData))]))
    {
      var r := Send(Responce(None, orgPacket.pID, replyData), false, env);
      threw := r.Threw?;
    }

    /** `_handlePacket`: a `responce` goes through every awaiting handler's
        `checkResolved`, and the list keeps only the handlers it answered.
        A `heartbeat` is answered with its own `time` and then, as there is
        no `break`, also goes to the application hook; should the reply
        throw, the exception leaves before the hook is reached.  Any other
        event goes to the hook only. */
    method HandlePacket(packet: Packet, env: Env)
      requires Valid()
      modifies this`socket, this`awaitingReplys, this`handled, env`nextId, set h | h in awaitingReplys
      ensures Valid()
      ensures Event(packet) == RESPONCE ==>
        && awaitingReplys == KeepAnswered(old(awaitingReplys), packet)
        && forall h :: h in old(awaitingReplys) ==> h.State() == AfterCheck(old(h.State()), packet)
      ensures Event(packet) != RESPONCE ==>
        && awaitingReplys == old(awaitingReplys)
        && forall h :: h in old(awaitingReplys) ==> h.State() == old(h.State())
      ensures Event(packet) == HEARTBEAT ==>
        && env.nextId == old(env.nextId) + 1
        && (old(socket).None? ==> socket == None && handled == old(handled))
        && (old(socket).Some? ==>
              && socket == Some(old(socket.value).(sent := old(socket.value.sent)
                                  + [Json(Responce(Some(old(env.nextId)), packet.pID, Time(packet)))]))
              && handled == old(handled) + [packet])
      ensures Event(packet) != HEARTBEAT ==> socket == old(socket) && env.nextId == old(env.nextId)
      ensures Event(packet) == RESPONCE ==> handled == old(handled)
      ensures Event(packet) != RESPONCE && Event(packet) != HEARTBEAT ==> handled == old(handled) + [packet]
    {
      if Event(packet) == RESPONCE {
        awaitingReplys := FilterAnswered(awaitingReplys, packet);
      } else {
        if Event(packet) == HEARTBEAT {
          var threw := Reply(packet, Time(packet), env);
          if threw {
            return;
          }
        }
        handled := handled + [packet];
      }
    }

    /** The socket's `message` event: a frame that does not parse is only
        logged; one that parses is dispatched. */
    method OnMessage(frame: Frame, env: Env)
      requires Valid()
      modifies this`socket, this`awaitingReplys, this`handled, env`nextId, set h | h in awaitingReplys
      ensures Valid()
      ensures frame.Garbage? ==>
        && socket == old(socket) && awaitingReplys == old(awaitingReplys) && handled == old(handled)
        && env.nextId == old(env.nextId)
        && forall h :: h in old(awaitingReplys) ==> h.State() == old(h.State())
      ensures frame.Json? && Event(frame.packet) == RESPONCE ==>
        && awaitingReplys == KeepAnswered(old(awaitingReplys), frame.packet)
        && socket == old(socket) && handled == old(handled)
        && forall h :: h in old(awaitingReplys) ==> h.State() == AfterCheck(old(h.State()), frame.packet)
      ensures frame.Json? && Event(frame.packet) == HEARTBEAT ==>
        && awaitingReplys == old(awaitingReplys)
        && env.nextId == old(env.nextId) + 1
        && (old(socket).None? ==> socket == None && handled == old(handled))
        && (old(socket).Some? ==>
              && socket == Some(old(socket.value).(sent := old(socket.value.sent)
                                  + [Json(Responce(Some(old(env.nextId)), frame.packet.pID, Time(frame.packet)))]))
              && handled == old(handled) + [frame.packet])
      ensures frame.Json? && Event(frame.packet) != RESPONCE && Event(frame.packet) != HEARTBEAT ==>
        && socket == old(socket) && awaitingReplys == old(awaitingReplys)
        && env.nextId == old(env.nextId)
        && handled == old(handled) + [frame.packet]
      ensures frame.Json? && Event(frame.packet) != RESPONCE ==>
        forall h :: h in old(awaitingReplys) ==> h.State() == old(h.State())
    {
      if frame.Json? {
        HandlePacket(frame.packet, env);
      }
    }
  }
}

=== FILE: environment.dfy ===
/** What the connection code reads from its runtime: the uuid generator and
    the clock.  Both are inputs here: identifiers come from a counter, which
    never repeats, and the clock is whatever the caller last set. */
module Environment {
  import opened Packets
  import opened LogHeader

  /** A reading of the clock: `Date.now()` and the local date fields. */
  datatype Clock = Clock(millis: int, local: LocalTime)

  class Env {
    /** The identifier the next call to `uuidv4()` returns. */
    var nextId: Id
    var clock: Clock

    constructor (start: Clock)
      ensures nextId == 0 && clock == start
    {
      nextId := 0;
      clock := start;
    }

    /** `uuidv4()`: a fresh identifier, distinct from every earlier one. */
    method FreshId() returns (id: Id)
      modifies this`nextId
      ensures id == old(nextId) && nextId == id + 1
    {
      id := nextId;
      nextId := nextId + 1;
    }
  }
}

=== FILE: hub.dfy ===
/** The server side (src/server.ts, and the older src/index.ts, whose
    `Client` and `Server` behave the same for every operation modelled here):
    a `Client` per accepted connection, with its awaiting list and heartbeat
    state, and the `Server` registry that accepts, closes and broadcasts. */
module Hub {
  import opened Packets
  import opened LogHeader
  import opened Environment
  import opened Correlator
  import opened Sequences

  /** The `ping` record of a connection. */
  datatype PingState = PingState(isAwaitingReply: bool, lastLatency: Number)

  datatype Direction = In | Out

  /** One line of the packet log: `[ IN]` or `[OUT]`, the local time the
      line is stamped with, the connection identifier and the raw frame. */
  datatype LogLine = LogLine(dir: Direction, at: LocalTime, client: Id, frame: Frame)

  /** The logging configuration; the write stream itself is not modelled. */
  datatype LogConfig = LogConfig(path: string, enabled: bool)

  /** `setupPacketLogger`: logging is on exactly when a non-empty path is
      given (the empty string is falsy). */
  function SetupPacketLogger(path: Option<string>): (cfg: LogConfig)
    ensures cfg.enabled <==> path.Some? && path.value != ""
    ensures cfg.enabled ==> cfg.path == path.value
    ensures !cfg.enabled ==> cfg.path == ""
  {
    if path.None? || path.value == "" then LogConfig("", false) else LogConfig(path.value, true)
  }

  /** What `logOutPacket` and the inbound listener append for one frame. */
  function LogFor(cfg: LogConfig, dir: Direction, at: LocalTime, client: Id, frame: Frame): seq<LogLine>
  {
    if cfg.enabled then [LogLine(dir, at, client, frame)] else []
  }

  /** What `await prom.catch(() => { })` yields: the reply data, or
      `undefined` when the promise was rejected. */
  function Awaited(c: Call): Value
  {
    match c
    case Resolved(_, data) => data
    case Rejected(_, _) => Undefined
  }

  /* ---------------- The registry as functions ---------------- */

  /** `clients.find(c => c.id == id)`, as the index of the first match. */
  function Find(cs: seq<Client>, id: Id): (r: Option<nat>)
    ensures r.Some? ==> r.value < |cs| && cs[r.value].id == id
    ensures r.Some? ==> forall j :: 0 <= j < r.value ==> cs[j].id != id
    ensures r.None? <==> forall c :: c in cs ==> c.id != id
  {
    if cs == [] then None
    else if cs[0].id == id then Some(0)
    else match Find(cs[1..], id)
      case None => None
      case Some(k) => Some(k + 1)
  }

  /** `clients.filter(c => c.id != id)`. */
  function WithoutId(cs: seq<Client>, id: Id): seq<Client>
    decreases |cs|
  {
    if cs == [] then []
    else WithoutId(cs[..|cs| - 1], id) + (if cs[|cs| - 1].id != id then [cs[|cs| - 1]] else [])
  }

  /** The connections a broadcast from `origin` sends to, in registry order.
      The filter has the same shape as `WithoutId`: it is the registry seen
      from the origin. */
  function Recipients(cs: seq<Client>, origin: Id): seq<Client>
  {
    WithoutId(cs, origin)
  }

  /** The outbound log lines of a broadcast from `origin` over `cs`, whose
      recipients take the identifiers from `next` on. */
  function BroadcastLog(cfg: LogConfig, at: LocalTime, cs: seq<Client>, origin: Id, packet: Packet, next: Id): seq<LogLine>
    decreases |cs|
  {
    if cs == [] then []
    else
      var init, last := cs[..|cs| - 1], cs[|cs| - 1];
      BroadcastLog(cfg, at, init, origin, packet, next)
      + (if last.id != origin
         then LogFor(cfg, Out, at, last.id, Json(Stamp(packet, next + |Recipients(init, origin)|)))
         else [])
  }

  /** The `pID` a broadcast from `origin` stamps on the frame for each
      connection of `cs`, when its first send takes `next`: each recipient
      takes the identifier after the ones its predecessors in the registry
      took.  (The entry for `origin` itself is never sent.) */
  function StampIds(cs: seq<Client>, origin: Id, next: Id): (r: seq<Id>)
    ensures |r| == |cs|
    decreases |cs|
  {
    if cs == [] then []
    else StampIds(cs[..|cs| - 1], origin, next) + [next + |Recipients(cs[..|cs| - 1], origin)|]
  }

  /** Entry `i` is the identifier after the ones the recipients before it
      took. */
  lemma {:induction false} StampIdAt(cs: seq<Client>, origin: Id, next: Id, i: nat)
    requires i < |cs|
    ensures StampIds(cs, origin, next)[i] == next + |Recipients(cs[..i], origin)|
    decreases |cs|
  {
    var init := cs[..|cs| - 1];
    if i < |cs| - 1 {
      StampIdAt(init, origin, next, i);
      assert init[..i] == cs[..i];
    }
  }

  /** Connection identifiers are pairwise distinct. */
  predicate DistinctIds(cs: seq<Client>)
  {
    forall i, j :: 0 <= i < j < |cs| ==> cs[i].id != cs[j].id
  }

  /** After `close(id)` no connection with that identifier remains, every
      other one stays, and their relative order is kept. */
  lemma {:induction false} WithoutIdSpec(cs: seq<Client>, id: Id)
    ensures forall c :: c in WithoutId(cs, id) ==> c in cs && c.id != id
    ensures forall c :: c in cs && c.id != id ==> c in WithoutId(cs, id)
    ensures Subsequence(WithoutId(cs, id), cs)
    decreases |cs|
  {
    if cs != [] {
      var init, last := cs[..|cs| - 1], cs[|cs| - 1];
      WithoutIdSpec(init, id);
      assert cs == init + [last];
      var s := WithoutId(cs, id);
      if last.id != id {
        assert s == WithoutId(init, id) + [last];
        assert s[..|s| - 1] == WithoutId(init, id);
      } else {
        assert s == WithoutId(init, id);
      }
    }
  }

  /** Closing an identifier that is not registered leaves the registry as
      it is. */
  lemma {:induction false} CloseUnknownKeeps(cs: seq<Client>, id: Id)
    requires Find(cs, id).None?
    ensures WithoutId(cs, id) == cs
    decreases |cs|
  {
    if cs != [] {
      var init := cs[..|cs| - 1];
      assert Find(init, id).None?;
      CloseUnknownKeeps(init, id);
      assert cs == init + [cs[|cs| - 1]];
    }
  }

  /** `close` is idempotent: after the first call the identifier is unknown,
      so a second call finds nothing and changes nothing. */
  lemma CloseTwice(cs: seq<Client>, id: Id)
    ensures Find(WithoutId(cs, id), id).None?
    ensures WithoutId(WithoutId(cs, id), id) == WithoutId(cs, id)
  {
    WithoutIdSpec(cs, id);
    CloseUnknownKeeps(WithoutId(cs, id), id);
  }

  /** Removing one registered identifier from a registry of distinct
      identifiers removes exactly one connection: a broadcast from a
      registered origin reaches all the others. */
  lemma {:induction false} RecipientsCount(cs: seq<Client>, origin: Id)
    requires DistinctIds(cs)
    ensures Find(cs, origin).Some? ==> |Recipients(cs, origin)| == |cs| - 1
    ensures Find(cs, origin).None? ==> |Recipients(cs, origin)| == |cs|
    decreases |cs|
  {
    if cs != [] {
      var init, last := cs[..|cs| - 1], cs[|cs| - 1];
      assert DistinctIds(init);
      RecipientsCount(init, origin);
      if last.id == origin {
        assert forall c :: c in init ==> c.id != origin by {
          forall c | c in init ensures c.id != origin {
            var i :| 0 <= i < |init| && init[i] == c;
            assert cs[i] == c;
          }
        }
      } else {
        assert Find(cs, origin).Some? <==> Find(init, origin).Some? by {
          assert forall c :: c in cs <==> c in init || c == last;
        }
      }
    }
  }

  /* ---------------- A server-side connection ---------------- */

  class Client {
    const server: Server
    const id: Id
    var socket: Socket
    var ping: PingState
    var awaitingReplys: seq<ReplyHandler>
    /** The packets handed to the application's `handlePacket` hook. */
    var handled: seq<Packet>

    /** The connection's state as a value. */
    function View(): Conn
      reads this
    {
      Conn(socket, ping, awaitingReplys, handled)
    }

    /** Every awaiting handler is a distinct object. */
    ghost predicate Valid()
      reads this
    {
      Distinct(awaitingReplys)
    }

    constructor (server: Server, socket: Socket, env: Env)
      modifies env`nextId
      ensures this.server == server && this.socket == socket
      ensures id == old(env.nextId) && env.nextId == id + 1
      ensures ping == PingState(false, Finite(0)) && awaitingReplys == [] && handled == []
      ensures Valid()
    {
      var newId := env.FreshId();
      this.server := server;
      this.socket := socket;
      id := newId;
      ping := PingState(false, Finite(0));
      awaitingReplys := [];
      handled := [];
    }

    /** `send(packet, withReply)`: stamp a fresh `pID`, emit exactly one
        frame, log it, and with `withReply` append one handler keyed by that
        `pID` and return its promise. */
    method Send(packet: Packet, withReply: bool, env: Env) returns (promise: Option<PromiseRef>)
      requires Valid()
      modifies this`socket, this`awaitingReplys, server`logFile, env`nextId
      ensures Valid()
      ensures env.nextId == old(env.nextId) + 1
      ensures socket == old(socket).(sent := old(socket.sent) + [Json(Stamp(packet, old(env.nextId)))])
      ensures server.logFile == old(server.logFile)
                + LogFor(server.log, Out, env.clock.local, id, Json(Stamp(packet, old(env.nextId))))
      ensures withReply ==>
        && |awaitingReplys| == |old(awaitingReplys)| + 1
        && awaitingReplys[..|old(awaitingReplys)|] == old(awaitingReplys)
        && fresh(awaitingReplys[|old(awaitingReplys)|])
        && awaitingReplys[|old(awaitingReplys)|].State() == AfterProm(Created(old(env.nextId)))
        && promise == Some(PromiseRef(old(env.nextId), 0))
      ensures !withReply ==> awaitingReplys == old(awaitingReplys) && promise == None
      ensures SentOnce(old(View()), View(), packet, old(env.nextId), withReply)
    {
      var pid := env.FreshId();
      var frame := Json(Stamp(packet, pid));
      socket := socket.(sent := socket.sent + [frame]);
      server.LogOutPacket(this, frame, env.clock.local);
      if withReply {
        var handler := new ReplyHandler(pid);
        var pr := handler.Prom();
        awaitingReplys := awaitingReplys + [handler];
        promise := Some(pr);
      } else {
        promise := None;
      }
    }

    /** `reply(orgPacket, replyData)`: one `responce` frame answering
        `orgPacket`, with no handler awaiting it. */
    method Reply(orgPacket: Packet, replyData: Value, env: Env)
      requires Valid()
      modifies this`socket, this`awaitingReplys, server`logFile, env`nextId
      ensures Valid()
      ensures env.nextId == old(env.nextId) + 1
      ensures socket.state == old(socket.state)
      ensures socket.sent == old(socket.sent) + [Json(Responce(Some(old(env.nextId)), orgPacket.pID, replyData))]
      ensures awaitingReplys == old(awaitingReplys)
      ensures server.logFile == old(server.logFile)
                + LogFor(server.log, Out, env.clock.local, id, Json(Responce(Some(old(env.nextId)), orgPacket.pID, replyData)))
    {
      var _ := Send(Responce(None, orgPacket.pID, replyData), false, env);
    }

    /** `_handlePacket`: a `responce` goes through every awaiting handler's
        `checkResolved`, and the list keeps only the handlers it answered;
        any other event goes to the application hook. */
    method HandlePacket(packet: Packet)
      requires Valid()
      modifies this`awaitingReplys, this`handled, set h | h in awaitingReplys
      ensures Valid()
      ensures Event(packet) == RESPONCE ==>
        && awaitingReplys == KeepAnswered(old(awaitingReplys), packet)
        && handled == old(handled)
        && forall h :: h in old(awaitingReplys) ==> h.State() == AfterCheck(old(h.State()), packet)
      ensures Event(packet) != RESPONCE ==>
        && awaitingReplys == old(awaitingReplys)
        && handled == old(handled) + [packet]
        && forall h :: h in old(awaitingReplys) ==> h.State() == old(h.State())
    {
      if Event(packet) == RESPONCE {
        awaitingReplys := FilterAnswered(awaitingReplys, packet);
      } else {
        handled := handled + [packet];
      }
    }

    /** The socket's `message` event: a frame that does not parse is only
        logged; one that parses is dispatched. */
    method OnMessage(frame: Frame)
      requires Valid()
      modifies this`awaitingReplys, this`handled, set h | h in awaitingReplys
      ensures Valid()
      ensures frame.Garbage? ==>
        && awaitingReplys == old(awaitingReplys) && handled == old(handled)
        && forall h :: h in old(awaitingReplys) ==> h.State() == old(h.State())
      ensures frame.Json? && Event(frame.packet) == RESPONCE ==>
        && awaitingReplys == KeepAnswered(old(awaitingReplys), frame.packet)
        && handled == old(handled)
        && forall h :: h in old(awaitingReplys) ==> h.State() == AfterCheck(old(h.State()), frame.packet)
      ensures frame.Json? && Event(frame.packet) != RESPONCE ==>
        && awaitingReplys == old(awaitingReplys)
        && handled == old(handled) + [frame.packet]
        && forall h :: h in old(awaitingReplys) ==> h.State() == old(h.State())
    {
      if frame.Json? {
        HandlePacket(frame.packet);
      }
    }

    /** A heartbeat tick: skipped while a heartbeat is outstanding;
        otherwise the flag is set and one heartbeat carrying the current time
        is sent with a reply expected.  Returns the promise being awaited. */
    method SendPing(env: Env) returns (pending: Option<PromiseRef>)
      requires Valid()
      modifies this`ping, this`socket, this`awaitingReplys, server`logFile, env`nextId
      ensures Valid()
      ensures old(ping.isAwaitingReply) ==>
        && pending == None && ping == old(ping) && socket == old(socket)
        && awaitingReplys == old(awaitingReplys)
        && server.logFile == old(server.logFile) && env.nextId == old(env.nextId)
      ensures !old(ping.isAwaitingReply) ==>
        && ping == old(ping).(isAwaitingReply := true)
        && env.nextId == old(env.nextId) + 1
        && socket.state == old(socket.state)
        && socket.sent == old(socket.sent) + [Json(Heartbeat(Some(old(env.nextId)), Num(env.clock.millis)))]
        && |awaitingReplys| == |old(awaitingReplys)| + 1
        && awaitingReplys[..|old(awaitingReplys)|] == old(awaitingReplys)
        && fresh(awaitingReplys[|old(awaitingReplys)|])
        && awaitingReplys[|old(awaitingReplys)|].State() == AfterProm(Created(old(env.nextId)))
        && server.logFile == old(server.logFile)
             + LogFor(server.log, Out, env.clock.local, id, Json(Heartbeat(Some(old(env.nextId)), Num(env.clock.millis))))
        && pending == Some(PromiseRef(old(env.nextId), 0))
    {
      if ping.isAwaitingReply {
        return None;
      }
      ping := ping.(isAwaitingReply := true);
      pending := Send(Heartbeat(None, Num(env.clock.millis)), true, env);
    }

    /** The heartbeat's promise has settled: a falsy result closes this
        connection and leaves the flag set; a truthy one records the latency
        and clears the flag. */
    method PingSettled(outcome: Call, env: Env)
      requires Valid() && server.Valid()
      modifies this`ping, server`clients, set c | c in server.clients
      ensures server.Valid()
      ensures !Truthy(Awaited(outcome)) ==>
        && ping == old(ping)
        && server.clients == WithoutId(old(server.clients), id)
        && (forall c :: c in old(server.clients) ==>
              c.ping == old(c.ping) && c.awaitingReplys == old(c.awaitingReplys) && c.handled == old(c.handled))
        && (Find(old(server.clients), id).None? ==>
              forall c :: c in old(server.clients) ==> c.socket == old(c.socket))
        && (Find(old(server.clients), id).Some? ==>
              var k := Find(old(server.clients), id).value;
              && old(server.clients)[k].socket == CloseIfOpen(old(server.clients[k].socket))
              && forall c :: c in old(server.clients) && c != old(server.clients)[k] ==> c.socket == old(c.socket))
      ensures Truthy(Awaited(outcome)) ==>
        && ping == PingState(false, Minus(env.clock.millis, Awaited(outcome)))
        && server.clients == old(server.clients)
        && socket == old(socket) && awaitingReplys == old(awaitingReplys) && handled == old(handled)
        && forall c :: c in old(server.clients) ==>
             && c.socket == old(c.socket) && c.awaitingReplys == old(c.awaitingReplys) && c.handled == old(c.handled)
             && (c != this ==> c.ping == old(c.ping))
    {
      var time := Awaited(outcome);
      if !Truthy(time) {
        server.Close(id);
        return;
      }
      ping := PingState(false, Minus(env.clock.millis, time));
    }

    /** The `close()` call of `close`: only an open socket starts closing. */
    method CloseSocket()
      modifies this`socket
      ensures socket == CloseIfOpen(old(socket))
    {
      socket := CloseIfOpen(socket);
    }

    /** `broadcast(packet, withReply)`: the server's broadcast from this
        connection, so every other registered connection gets the packet and
        this one is never sent to.  The promises are not passed back. */
    method Broadcast(packet: Packet, withReply: bool, env: Env)
      requires server.Valid()
      modifies server`logFile, env`nextId, set c | c in server.clients
      ensures server.Valid() && server.clients == old(server.clients)
      ensures env.nextId == old(env.nextId) + |Recipients(server.clients, id)|
      ensures server.logFile == old(server.logFile)
                + BroadcastLog(server.log, env.clock.local, server.clients, id, packet, old(env.nextId))
      ensures forall k :: 0 <= k < |server.clients| ==>
        Broadcasted(server.clients[k].id, old(server.clients[k].View()), server.clients[k].View(),
                    id, packet, StampIds(server.clients, id, old(env.nextId))[k], withReply)
      ensures withReply ==> forall k :: 0 <= k < |server.clients| && server.clients[k].id != id ==>
        && |old(server.clients[k].awaitingReplys)| < |server.clients[k].awaitingReplys|
        && fresh(server.clients[k].awaitingReplys[|old(server.clients[k].awaitingReplys)|])
        && server.clients[k].awaitingReplys[|old(server.clients[k].awaitingReplys)|].State()
             == AfterProm(Created(StampIds(server.clients, id, old(env.nextId))[k]))
      ensures this in old(server.clients) ==> View() == old(View())
      ensures socket == old(socket)
    {
      var _ := server.Broadcast(id, packet, withReply, env);
    }
  }

  /* ---------------- The registry ---------------- */

  class Server {
    var clients: seq<Client>
    const log: LogConfig
    var logFile: seq<LogLine>

    /** The registry holds distinct connections that belong to it. */
    ghost predicate Valid()
      reads this, set c | c in clients
    {
      && Distinct(clients)
      && (forall c :: c in clients ==> c.server == this && c.Valid())
    }

    constructor (logPath: Option<string>)
      ensures clients == [] && log == SetupPacketLogger(logPath) && logFile == []
      ensures Valid()
    {
      clients := [];
      log := SetupPacketLogger(logPath);
      logFile := [];
    }

    /** `makeConnection`: wrap the accepted socket in a new connection and
        append it, and nothing else, to the registry. */
    method MakeConnection(socket: Socket, env: Env) returns (c: Client)
      requires Valid()
      modifies this`clients, env`nextId
      ensures Valid()
      ensures fresh(c) && clients == old(clients) + [c]
      ensures c.server == this && c.socket == socket && c.id == old(env.nextId)
      ensures c.ping == PingState(false, Finite(0)) && c.awaitingReplys == [] && c.handled == []
      ensures env.nextId == old(env.nextId) + 1
    {
      c := new Client(this, socket, env);
      clients := clients + [c];
    }

    /** `logOutPacket`: one `[OUT]` line when logging is enabled. */
    method LogOutPacket(c: Client, frame: Frame, at: LocalTime)
      modifies this`logFile
      ensures logFile == old(logFile) + LogFor(log, Out, at, c.id, frame)
    {
      if log.enabled {
        logFile := logFile + [LogLine(Out, at, c.id, frame)];
      }
    }

    /** A frame arrives on a connection's socket: the connection's own
        listener dispatches it, then the listener `makeConnection` attached
        writes the `[ IN]` line when logging is enabled. */
    method Receive(c: Client, frame: Frame, env: Env)
      requires Valid() && c.server == this && c.Valid()
      modifies c`awaitingReplys, c`handled, set h | h in c.awaitingReplys, this`logFile
      ensures Valid() && c.Valid() && clients == old(clients)
      ensures logFile == old(logFile) + LogFor(log, In, env.clock.local, c.id, frame)
      ensures c.socket == old(c.socket) && c.ping == old(c.ping)
      ensures frame.Garbage? ==>
        && c.awaitingReplys == old(c.awaitingReplys) && c.handled == old(c.handled)
        && forall h :: h in old(c.awaitingReplys) ==> h.State() == old(h.State())
      ensures frame.Json? && Event(frame.packet) == RESPONCE ==>
        && c.awaitingReplys == KeepAnswered(old(c.awaitingReplys), frame.packet)
        && c.handled == old(c.handled)
        && forall h :: h in old(c.awaitingReplys) ==> h.State() == AfterCheck(old(h.State()), frame.packet)
      ensures frame.Json? && Event(frame.packet) != RESPONCE ==>
        && c.awaitingReplys == old(c.awaitingReplys) && c.handled == old(c.handled) + [frame.packet]
        && forall h :: h in old(c.awaitingReplys) ==> h.State() == old(h.State())
    {
      c.OnMessage(frame);
      if log.enabled {
        logFile := logFile + [LogLine(In, env.clock.local, c.id, frame)];
      }
    }

    /** `clients.find(c => c.id == clientID)`: the position of the first
        connection with that identifier. */
    method FindClient(clientID: Id) returns (k: Option<nat>)
      ensures k == Find(clients, clientID)
    {
      var i := 0;
      while i < |clients| && clients[i].id != clientID
        invariant 0 <= i <= |clients|
        invariant Find(clients, clientID) == (match Find(clients[i..], clientID)
                                                case None => None
                                                case Some(j) => Some(i + j))
      {
        assert clients[i..][1..] == clients[i + 1..];
        i := i + 1;
      }
      if i == |clients| {
        return None;
      }
      return Some(i);
    }

    /** `close(clientID)`: an unknown identifier is a no-op; otherwise the
        first connection with it has its socket closed if the socket is open,
        and every connection with it leaves the registry. */
    method Close(clientID: Id)
      requires Valid()
      modifies this`clients, set c | c in clients
      ensures Valid()
      ensures clients == WithoutId(old(clients), clientID)
      ensures forall c :: c in old(clients) ==>
        c.ping == old(c.ping) && c.awaitingReplys == old(c.awaitingReplys) && c.handled == old(c.handled)
      ensures Find(old(clients), clientID).None? ==>
        forall c :: c in old(clients) ==> c.socket == old(c.socket)
      ensures Find(old(clients), clientID).Some? ==>
        var k := Find(old(clients), clientID).value;
        && old(clients)[k].socket == CloseIfOpen(old(clients[k].socket))
        && forall c :: c in old(clients) && c != old(clients)[k] ==> c.socket == old(c.socket)
    {
      var k := FindClient(clientID);
      if k.None? {
        CloseUnknownKeeps(clients, clientID);
        return;
      }
      clients[k.value].CloseSocket();
      var rest := FilterOut(clients, clientID);
      WithoutIdSpec(clients, clientID);
      WithoutIdDistinct(clients, clientID);
      clients := rest;
    }

    /** One turn of the broadcast loop over `cs`: `send` on `c`, which is
        `cs[i]`, unless it is the origin.  Only `c` changes: the handlers
        `news` that earlier turns added keep their state. */
    method SendTo(c: Client, origin: Id, packet: Packet, withReply: bool, env: Env, ghost cs: seq<Client>, ghost i: nat,
                  ghost news: set<ReplyHandler>)
      returns (p: Option<PromiseRef>)
      requires i < |cs| && c == cs[i] && c.server == this && c.Valid() && Distinct(cs) && AllArmed(news)
      modifies c`socket, c`awaitingReplys, this`logFile, env`nextId
      ensures c.Valid()
      ensures Views(cs) == old(Views(cs))[i := c.View()]
      ensures Broadcasted(c.id, old(c.View()), c.View(), origin, packet, old(env.nextId), withReply)
      ensures c.id != origin && withReply ==>
        && fresh(c.awaitingReplys[|old(c.awaitingReplys)|])
        && c.awaitingReplys[|old(c.awaitingReplys)|].State() == AfterProm(Created(old(env.nextId)))
      ensures AllArmed(news)
      ensures c.id != origin ==>
        && env.nextId == old(env.nextId) + 1
        && logFile == old(logFile) + LogFor(log, Out, env.clock.local, c.id, Json(Stamp(packet, old(env.nextId))))
      ensures c.id == origin ==> env.nextId == old(env.nextId) && logFile == old(logFile)
      ensures p.Some? <==> c.id != origin && withReply
      ensures p.Some? ==> p.value == PromiseRef(old(env.nextId), 0)
    {
      if c.id != origin {
        p := c.Send(packet, withReply, env);
      } else {
        p := None;
      }
      forall k | 0 <= k < |cs| && k != i
        ensures cs[k] != c
      {
        assert cs[k] == cs[k] && cs[i] == c;
      }
      forall h | h in news
        ensures JustArmed(h)
      {
        assert old(JustArmed(h)) && old(allocated(h));
      }
    }

    /** One turn of the broadcast loop: `send` on `c`, which is `cs[i]`,
        unless it is the origin, and collect its promise and (as a ghost)
        the handler it adds. */
    method BroadcastTurn(c: Client, b: Cast, ghost cs: seq<Client>, ghost i: nat, ghost log0: seq<LogLine>,
                         ghost before: seq<Conn>, env: Env, proms: seq<PromiseRef>, ghost news: set<ReplyHandler>)
      returns (proms': seq<PromiseRef>, ghost news': set<ReplyHandler>)
      requires i < |cs| && c == cs[i] && c.server == this && Distinct(cs)
      requires log == b.cfg && env.clock.local == b.at
      requires Passed(b, cs, i, log0, env.nextId, logFile, proms, before, Views(cs), news) && AllArmed(news)
      modifies c`socket, c`awaitingReplys, this`logFile, env`nextId
      ensures Passed(b, cs, i + 1, log0, env.nextId, logFile, proms', before, Views(cs), news') && AllArmed(news')
      ensures fresh(news' - news)
    {
      ghost var now := Views(cs);
      TallyStep(b, cs, i, log0, env.nextId, logFile, proms);
      ghost var pid := env.nextId;
      var p := SendTo(c, b.origin, b.packet, b.withReply, env, cs, i, news);
      ProgressStep(b, cs, i, before, now, c.View(), pid);
      proms' := if p.Some? then proms + [p.value] else proms;
      news' := news;
      if b.withReply && c.id != b.origin {
        assert now[i].awaiting == old(c.awaitingReplys);
        ghost var h := c.awaitingReplys[|now[i].awaiting|];
        assert fresh(h);
        news' := news + {h};
      }
      LinkedStep(b, cs, i, before, now, news, c.View());
    }

    /** The loop of `broadcast` over the registry `cs`, for the broadcast
        `b`: the counters and the connections' states after all of `cs`,
        and (as a ghost) the handlers it has added. */
    method BroadcastLoop(b: Cast, cs: seq<Client>, env: Env) returns (proms: seq<PromiseRef>, ghost news: set<ReplyHandler>)
      requires Distinct(cs) && forall k :: 0 <= k < |cs| ==> cs[k].server == this && cs[k].Valid()
      requires log == b.cfg && env.clock.local == b.at && env.nextId == b.first
      modifies this`logFile, env`nextId, set c | c in cs
      ensures Tallied(b, cs, |cs|, old(logFile), env.nextId, logFile, proms)
      ensures Progressed(b, cs, |cs|, old(Views(cs)), Views(cs))
      ensures Linked(b, cs, |cs|, old(Views(cs)), Views(cs), news) && AllArmed(news) && fresh(news)
    {
      ghost var log0 := logFile;
      ghost var before := Views(cs);
      proms, news := [], {};
      var i := 0;
      assert cs[..0] == [] && logFile == log0 + [];
      while i < |cs|
        invariant i <= |cs| && env.clock.local == b.at
        invariant Passed(b, cs, i, log0, env.nextId, logFile, proms, before, Views(cs), news) && AllArmed(news)
        invariant fresh(news)
      {
        proms, news := BroadcastTurn(cs[i], b, cs, i, log0, before, env, proms, news);
        i := i + 1;
      }
    }

    /** `broadcast(clientID, packet, withReply)`: `send` once on every
        registered connection whose identifier is not `origin`, in registry
        order, each with its own fresh `pID`; with `withReply` the promises
        of those sends, one per recipient, otherwise nothing. */
    method Broadcast(origin: Id, packet: Packet, withReply: bool, env: Env) returns (replies: Option<seq<PromiseRef>>)
      requires Valid()
      modifies this`logFile, env`nextId, set c | c in clients
      ensures Valid() && clients == old(clients)
      ensures env.nextId == old(env.nextId) + |Recipients(clients, origin)|
      ensures logFile == old(logFile) + BroadcastLog(log, env.clock.local, clients, origin, packet, old(env.nextId))
      ensures replies.Some? <==> withReply
      ensures withReply ==> replies.value == Promises(old(env.nextId), |Recipients(clients, origin)|)
      ensures forall k :: 0 <= k < |clients| ==>
        Broadcasted(clients[k].id, old(clients[k].View()), clients[k].View(),
                    origin, packet, StampIds(clients, origin, old(env.nextId))[k], withReply)
      ensures withReply ==> forall k :: 0 <= k < |clients| && clients[k].id != origin ==>
        && |old(clients[k].awaitingReplys)| < |clients[k].awaitingReplys|
        && fresh(clients[k].awaitingReplys[|old(clients[k].awaitingReplys)|])
        && clients[k].awaitingReplys[|old(clients[k].awaitingReplys)|].State()
             == AfterProm(Created(StampIds(clients, origin, old(env.nextId))[k]))
    {
      var b := Cast(origin, packet, withReply, env.nextId, log, env.clock.local);
      ghost var before := Views(clients);
      var proms;
      ghost var news;
      proms, news := BroadcastLoop(b, clients, env);
      assert clients[..|clients|] == clients;
      forall k | 0 <= k < |clients|
        ensures clients[k].Valid()
      {
        assert Views(clients)[k].awaiting == clients[k].awaitingReplys;
      }
      ghost var cs, after := clients, Views(clients);
      forall k | withReply && 0 <= k < |cs| && cs[k].id != origin
        ensures |old(cs[k].awaitingReplys)| < |cs[k].awaitingReplys|
        ensures fresh(cs[k].awaitingReplys[|old(cs[k].awaitingReplys)|])
        ensures cs[k].awaitingReplys[|old(cs[k].awaitingReplys)|].State()
                  == AfterProm(Created(StampIds(cs, origin, b.first)[k]))
      {
        assert before[k].awaiting == old(cs[k].awaitingReplys) && after[k].awaiting == cs[k].awaitingReplys;
        var h := after[k].awaiting[|before[k].awaiting|];
        assert h in news;
      }
      replies := if withReply then Some(proms) else None;
    }
  }

  /** The state of one connection, as a value. */
  datatype Conn = Conn(socket: Socket, ping: PingState, awaiting: seq<ReplyHandler>, handled: seq<Packet>)

  /** What a broadcast leaves on a connection it sent to: exactly one more
      frame, stamped with `pid`, and with `withReply` exactly one more
      awaiting handler, keyed by `pid`; nothing else changes. */
  predicate SentOnce(before: Conn, after: Conn, packet: Packet, pid: Id, withReply: bool)
  {
    && after.ping == before.ping && after.handled == before.handled
    && after.socket == before.socket.(sent := before.socket.sent + [Json(Stamp(packet, pid))])
    && (withReply ==>
          && |after.awaiting| == |before.awaiting| + 1
          && after.awaiting[..|before.awaiting|] == before.awaiting
          && after.awaiting[|before.awaiting|].pID == pid)
    && (!withReply ==> after.awaiting == before.awaiting)
  }

  /** A handler as `send` leaves it: its promise taken, its timeout
      scheduled, nothing settled. */
  ghost predicate JustArmed(h: ReplyHandler)
    reads h
  {
    h.State() == AfterProm(Created(h.pID))
  }

  /** What a broadcast from `origin` does to the connection `id`: the origin
      is left as it was, any other connection is sent to once. */
  predicate Broadcasted(id: Id, before: Conn, after: Conn, origin: Id, packet: Packet, pid: Id, withReply: bool)
  {
    if id == origin then after == before else SentOnce(before, after, packet, pid, withReply)
  }

  /** The connections' states, in registry order. */
  function Views(cs: seq<Client>): (r: seq<Conn>)
    reads set c | c in cs
    ensures |r| == |cs| && forall k :: 0 <= k < |cs| ==> r[k] == cs[k].View()
  {
    if cs == [] then [] else [cs[0].View()] + Views(cs[1..])
  }

  /** A broadcast in progress: its origin, packet and reply flag, the
      identifier its first send takes, and the log configuration and local
      time its log lines are written with. */
  datatype Cast = Cast(origin: Id, packet: Packet, withReply: bool, first: Id, cfg: LogConfig, at: LocalTime)

  /** `n` promises, for the identifiers from `first` on. */
  function Promises(first: Id, n: nat): (r: seq<PromiseRef>)
    ensures |r| == n && forall j :: 0 <= j < n ==> r[j] == PromiseRef(first + j, 0)
  {
    if n == 0 then [] else Promises(first, n - 1) + [PromiseRef(first + n - 1, 0)]
  }

  /** The counters of a broadcast after its loop has passed the first `i`
      connections of `cs`: one identifier, one log share and (with a reply)
      one promise per recipient so far. */
  predicate Tallied(b: Cast, cs: seq<Client>, i: nat, log0: seq<LogLine>, nextId: Id, logFile: seq<LogLine>, proms: seq<PromiseRef>)
  {
    && i <= |cs|
    && nextId == b.first + |Recipients(cs[..i], b.origin)|
    && logFile == log0 + BroadcastLog(b.cfg, b.at, cs[..i], b.origin, b.packet, b.first)
    && proms == (if b.withReply then Promises(b.first, |Recipients(cs[..i], b.origin)|) else [])
  }

  /** The connections' states `now`, against their states `before` the
      loop, after it has passed the first `i` of them. */
  predicate Progressed(b: Cast, cs: seq<Client>, i: nat, before: seq<Conn>, now: seq<Conn>)
  {
    && i <= |cs| && |before| == |cs| && |now| == |cs|
    && (forall k :: 0 <= k < |cs| ==> Distinct(now[k].awaiting))
    && (forall k :: 0 <= k < i ==>
          Broadcasted(cs[k].id, before[k], now[k], b.origin, b.packet, StampIds(cs, b.origin, b.first)[k], b.withReply))
    && (forall k :: i <= k < |cs| ==> now[k] == before[k])
  }

  /** One turn of the loop keeps the counters right. */
  lemma TallyStep(b: Cast, cs: seq<Client>, i: nat, log0: seq<LogLine>, nextId: Id, logFile: seq<LogLine>, proms: seq<PromiseRef>)
    requires i < |cs| && Tallied(b, cs, i, log0, nextId, logFile, proms)
    ensures cs[i].id != b.origin ==>
      Tallied(b, cs, i + 1, log0, nextId + 1,
              logFile + LogFor(b.cfg, Out, b.at, cs[i].id, Json(Stamp(b.packet, nextId))),
              proms + (if b.withReply then [PromiseRef(nextId, 0)] else []))
    ensures cs[i].id == b.origin ==> Tallied(b, cs, i + 1, log0, nextId, logFile, proms)
  {
    BroadcastStep(b.cfg, b.at, cs, i, b.origin, b.packet, b.first);
    AppendAssoc(log0, BroadcastLog(b.cfg, b.at, cs[..i], b.origin, b.packet, b.first),
                LogFor(b.cfg, Out, b.at, cs[i].id, Json(Stamp(b.packet, nextId))));
  }

  /** One turn of the loop, sending to connection `i` as `Broadcasted`
      says, keeps the states right. */
  lemma ProgressStep(b: Cast, cs: seq<Client>, i: nat, before: seq<Conn>, now: seq<Conn>, v: Conn, pid: Id)
    requires i < |cs| && Progressed(b, cs, i, before, now)
    requires pid == b.first + |Recipients(cs[..i], b.origin)|
    requires Broadcasted(cs[i].id, now[i], v, b.origin, b.packet, pid, b.withReply) && Distinct(v.awaiting)
    ensures Progressed(b, cs, i + 1, before, now[i := v])
  {
    StampIdAt(cs, b.origin, b.first, i);
  }

  /** The handlers the loop has added to the first `i` connections of `cs`
      are among `news`: one per recipient, just past the handlers it had
      `before`. */
  predicate Linked(b: Cast, cs: seq<Client>, i: nat, before: seq<Conn>, now: seq<Conn>, news: set<ReplyHandler>)
  {
    && i <= |cs| && |before| == |cs| && |now| == |cs|
    && (b.withReply ==>
          forall k :: 0 <= k < i && cs[k].id != b.origin ==>
            |before[k].awaiting| < |now[k].awaiting| && now[k].awaiting[|before[k].awaiting|] in news)
  }

  /** The loop's state after it has passed the first `i` connections. */
  predicate Passed(b: Cast, cs: seq<Client>, i: nat, log0: seq<LogLine>, nextId: Id, logFile: seq<LogLine>,
                   proms: seq<PromiseRef>, before: seq<Conn>, now: seq<Conn>, news: set<ReplyHandler>)
  {
    && Tallied(b, cs, i, log0, nextId, logFile, proms)
    && Progressed(b, cs, i, before, now)
    && Linked(b, cs, i, before, now, news)
  }

  /** Every handler of `news` is as `send` left it. */
  ghost predicate AllArmed(news: set<ReplyHandler>)
    reads news
  {
    forall h :: h in news ==> JustArmed(h)
  }

  /** One turn of the loop, which changes connection `i` only and adds at
      most its new handler, keeps the handlers linked. */
  lemma LinkedStep(b: Cast, cs: seq<Client>, i: nat, before: seq<Conn>, now: seq<Conn>, news: set<ReplyHandler>, v: Conn)
    requires i < |cs| && Linked(b, cs, i, before, now, news) && now[i] == before[i]
    requires b.withReply && cs[i].id != b.origin ==> |now[i].awaiting| < |v.awaiting|
    ensures Linked(b, cs, i + 1, before, now[i := v],
                   if b.withReply && cs[i].id != b.origin then news + {v.awaiting[|now[i].awaiting|]} else news)
  {
  }

  /** One more connection extends the recipients and the log of a
      broadcast by that connection's share. */
  lemma BroadcastStep(cfg: LogConfig, at: LocalTime, cs: seq<Client>, i: nat, origin: Id, packet: Packet, first: Id)
    requires i < |cs|
    ensures Recipients(cs[..i + 1], origin)
          == Recipients(cs[..i], origin) + (if cs[i].id != origin then [cs[i]] else [])
    ensures BroadcastLog(cfg, at, cs[..i + 1], origin, packet, first)
          == BroadcastLog(cfg, at, cs[..i], origin, packet, first)
             + (if cs[i].id != origin
                then LogFor(cfg, Out, at, cs[i].id, Json(Stamp(packet, first + |Recipients(cs[..i], origin)|)))
                else [])
  {
    assert cs[..i + 1][..i] == cs[..i];
  }

  /** The filter loop of `close`. */
  method FilterOut(cs: seq<Client>, id: Id) returns (rest: seq<Client>)
    ensures rest == WithoutId(cs, id)
  {
    rest := [];
    var i := 0;
    while i < |cs|
      invariant 0 <= i <= |cs|
      invariant rest == WithoutId(cs[..i], id)
    {
      if cs[i].id != id {
        rest := rest + [cs[i]];
      }
      assert cs[..i + 1][..i] == cs[..i];
      i := i + 1;
    }
    assert cs[..i] == cs;
  }

  /** A filtered registry keeps its connections distinct. */
  lemma {:induction false} WithoutIdDistinct(cs: seq<Client>, id: Id)
    requires Distinct(cs)
    ensures Distinct(WithoutId(cs, id))
    decreases |cs|
  {
    if cs != [] {
      var init, last := cs[..|cs| - 1], cs[|cs| - 1];
      WithoutIdDistinct(init, id);
      WithoutIdSpec(init, id);
      assert last !in init by {
        forall k | 0 <= k < |init| ensures init[k] != last {
          assert cs[k] == init[k];
        }
      }
      var before := WithoutId(init, id);
      assert cs == init + [last];
      var r := WithoutId(cs, id);
      if last.id != id {
        assert r == before + [last];
        forall i, j | 0 <= i < j < |r|
          ensures r[i] != r[j]
        {
          assert r[i] == before[i] && before[i] in before;
          if j < |r| - 1 {
            assert r[j] == before[j];
          }
        }
      } else {
        assert r == before;
      }
    }
  }
}

=== FILE: log_header.dfy ===
/** The `[DD/MM][hh:mm]` prefix of every packet-log line, built from the
    local date by `addZero`, `DHeader` and `THeader`. */
module LogHeader {
  import opened Packets

  /** The four local-time readings the header uses: `getDate()`,
      `getMonth()` (zero-based), `getHours()` and `getMinutes()`. */
  datatype LocalTime = LocalTime(date: nat, month: nat, hours: nat, minutes: nat)

  /** The ranges a JavaScript `Date` guarantees for those readings. */
  predicate Calendar(t: LocalTime)
  {
    1 <= t.date <= 31 && t.month <= 11 && t.hours <= 23 && t.minutes <= 59
  }

  function DigitChar(d: nat): char
    requires d < 10
  {
    "0123456789"[d]
  }

  /** The value of a decimal digit character, if it is one. */
  function DigitValue(c: char): Option<nat>
  {
    if '0' <= c <= '9' then Some(c as int - '0' as int) else None
  }

  /** `n.toString()` for a non-negative integer. */
  function Digits(n: nat): (r: string)
    ensures |r| >= 1
    ensures |r| == 1 <==> n < 10
  {
    if n < 10 then [DigitChar(n)] else Digits(n / 10) + [DigitChar(n % 10)]
  }

  /** `addZero`: pad a one-character rendering with a leading zero, and
      otherwise keep only the first two characters. */
  function AddZero(n: nat): (r: string)
    ensures |r| == 2
  {
    var s := Digits(n);
    if |s| >= 2 then s[..2] else "0" + s
  }

  /** A two-character decimal field read back, if it is one. */
  function TwoDigitValue(s: string): Option<nat>
  {
    if |s| != 2 then None
    else match (DigitValue(s[0]), DigitValue(s[1]))
      case (Some(hi), Some(lo)) => Some(10 * hi + lo)
      case _ => None
  }

  /** `DHeader`: `[DD/MM]`, the month shown one-based. */
  function DHeader(t: LocalTime): string
  {
    "[" + AddZero(t.date) + "/" + AddZero(t.month + 1) + "]"
  }

  /** `THeader`: `[hh:mm]`. */
  function THeader(t: LocalTime): string
  {
    "[" + AddZero(t.hours) + ":" + AddZero(t.minutes) + "]"
  }

  /** `getDateHeader`: the date part followed by the time part. */
  function DateHeader(t: LocalTime): string
  {
    DHeader(t) + THeader(t)
  }

  /** Reads a header back into the four readings, if it has the layout. */
  function ParseHeader(s: string): Option<LocalTime>
  {
    if |s| != 14 || s[0] != '[' || s[3] != '/' || s[6] != ']' || s[7] != '[' || s[10] != ':' || s[13] != ']'
    then None
    else match (TwoDigitValue(s[1..3]), TwoDigitValue(s[4..6]), TwoDigitValue(s[8..10]), TwoDigitValue(s[11..13]))
      case (Some(d), Some(m), Some(h), Some(mi)) =>
        if m == 0 then None else Some(LocalTime(d, m - 1, h, mi))
      case _ => None
  }

  /** Below one hundred, `addZero` is the two-digit decimal rendering. */
  lemma AddZeroTwoDigits(n: nat)
    requires n < 100
    ensures AddZero(n) == [DigitChar(n / 10), DigitChar(n % 10)]
  {
    if n >= 10 {
      assert Digits(n) == Digits(n / 10) + [DigitChar(n % 10)];
      assert Digits(n / 10) == [DigitChar(n / 10)];
    }
  }

  /** From one hundred on, `addZero` drops trailing digits: it shows the
      leading two digits only. */
  lemma AddZeroTruncates(n: nat)
    requires n >= 100
    ensures AddZero(n) == AddZero(n / 10)
    ensures AddZero(n) == Digits(n)[..2]
  {
    var s := Digits(n / 10);
    assert Digits(n) == s + [DigitChar(n % 10)];
    assert |s| >= 2;
    assert Digits(n)[..2] == s[..2];
  }

  /** Below one hundred, the two characters read back as the number. */
  lemma AddZeroRoundTrip(n: nat)
    requires n < 100
    ensures TwoDigitValue(AddZero(n)) == Some(n)
  {
    AddZeroTwoDigits(n);
    var s := AddZero(n);
    assert DigitValue(s[0]) == Some(n / 10);
    assert DigitValue(s[1]) == Some(n % 10);
  }

  /** The header always has the fourteen-character layout
      `[DD/MM][hh:mm]`, whatever the readings. */
  lemma HeaderLayout(t: LocalTime)
    ensures |DateHeader(t)| == 14
    ensures DateHeader(t)[0] == '[' && DateHeader(t)[3] == '/' && DateHeader(t)[6] == ']'
    ensures DateHeader(t)[7] == '[' && DateHeader(t)[10] == ':' && DateHeader(t)[13] == ']'
    ensures DateHeader(t)[1..3] == AddZero(t.date) && DateHeader(t)[4..6] == AddZero(t.month + 1)
    ensures DateHeader(t)[8..10] == AddZero(t.hours) && DateHeader(t)[11..13] == AddZero(t.minutes)
  {
  }

  /** For every calendar reading the header determines the reading: the
      day, the one-based month, the hour and the minute can be read back. */
  lemma HeaderRoundTrip(t: LocalTime)
    requires Calendar(t)
    ensures ParseHeader(DateHeader(t)) == Some(t)
  {
    HeaderLayout(t);
    AddZeroRoundTrip(t.date);
    AddZeroRoundTrip(t.month + 1);
    AddZeroRoundTrip(t.hours);
    AddZeroRoundTrip(t.minutes);
  }
}

=== FILE: packets.dfy ===
/** The packet model shared by both ends of a connection: identifiers, the JSON
    values a packet may carry, the packet variants, the frames on the wire and
    the transport socket as a record. */
module Packets {

  /** A correlation or connection identifier (a uuid in the source). */
  type Id = nat

  datatype Option<+T> = None | Some(value: T)

  /** The JSON values a packet field may hold (`data?: any`, `time: number`).
      Numbers are integers here; objects and arrays are not modelled. */
  datatype Value = Undefined | Null | Bool(b: bool) | Num(n: int) | Str(s: string)

  /** JavaScript truthiness, as tested by `!time` in the heartbeat continuation. */
  predicate Truthy(v: Value)
  {
    match v
    case Undefined => false
    case Null => false
    case Bool(b) => b
    case Num(n) => n != 0
    case Str(s) => s != ""
  }

  /** A JavaScript number as produced by subtraction: an integer or NaN. */
  datatype Number = Finite(n: int) | NaN

  /** The numeric coercion `now - v` applies to its right operand.  Strings
      are taken as NaN (numeric strings are not parsed). */
  function ToNumber(v: Value): (r: Number)
    ensures v.Num? ==> r == Finite(v.n)
    ensures v.Undefined? || v.Str? ==> r == NaN
  {
    match v
    case Undefined => NaN
    case Null => Finite(0)
    case Bool(b) => Finite(if b then 1 else 0)
    case Num(n) => Finite(n)
    case Str(_) => NaN
  }

  /** `now - v`. */
  function Minus(now: int, v: Value): (r: Number)
    ensures v.Num? ==> r == Finite(now - v.n)
    ensures ToNumber(v) == NaN <==> r == NaN
  {
    match ToNumber(v)
    case Finite(n) => Finite(now - n)
    case NaN => NaN
  }

  /** A packet: the two protocol variants and the application-defined ones.
      Every variant carries the optional `pID` the sender stamps on it. */
  datatype Packet =
    | Heartbeat(pID: Option<Id>, time: Value)
    | Responce(pID: Option<Id>, orgPID: Option<Id>, data: Value)
    | App(event: string, pID: Option<Id>, body: Value)

  const HEARTBEAT: string := "heartbeat"
  const RESPONCE: string := "responce"

  /** The `event` field the dispatchers switch on. */
  function Event(p: Packet): string
  {
    match p
    case Heartbeat(_, _) => HEARTBEAT
    case Responce(_, _, _) => RESPONCE
    case App(e, _, _) => e
  }

  /** `packet.orgPID`: undefined unless the packet is a responce. */
  function OrgPID(p: Packet): Option<Id>
  {
    if p.Responce? then p.orgPID else None
  }

  /** `packet.data`: undefined unless the packet is a responce. */
  function Data(p: Packet): Value
  {
    if p.Responce? then p.data else Undefined
  }

  /** `packet.time`: undefined unless the packet is a heartbeat. */
  function Time(p: Packet): Value
  {
    if p.Heartbeat? then p.time else Undefined
  }

  /** `packet.pID = uuidv4()`: the sender overwrites the identifier and
      nothing else. */
  function Stamp(p: Packet, id: Id): (r: Packet)
    ensures r.pID == Some(id)
    ensures Event(r) == Event(p) && OrgPID(r) == OrgPID(p)
    ensures Data(r) == Data(p) && Time(r) == Time(p)
    ensures r.App? ==> p.App? && r.body == p.body
  {
    p.(pID := Some(id))
  }

  /** A text frame on the wire: the JSON text of a packet, or text that
      `JSON.parse` rejects. */
  datatype Frame = Json(packet: Packet) | Garbage(text: string)

  /** The `readyState` of a transport socket. */
  datatype ReadyState = Connecting | Open | Closing | Closed

  /** A transport socket: its state and every frame handed to its `send`. */
  datatype Socket = Socket(state: ReadyState, sent: seq<Frame>)

  /** `socket.close()` as the server issues it: only an open socket is closed. */
  function CloseIfOpen(s: Socket): (r: Socket)
    ensures r.sent == s.sent
    ensures s.state == Open ==> r.state == Closing
    ensures s.state != Open ==> r == s
  {
    if s.state == Open then s.(state := Closing) else s
  }
}

=== FILE: sequences.dfy ===
/** Order-preserving sublists, the shape every `Array.filter` in the source
    produces. */
module Sequences {

  /** `s` is `t` with some elements left out and the rest kept in order. */
  ghost predicate Subsequence<T>(s: seq<T>, t: seq<T>)
    decreases |t|
  {
    s == [] ||
    (t != [] &&
      ((s[|s| - 1] == t[|t| - 1] && Subsequence(s[..|s| - 1], t[..|t| - 1])) ||
       Subsequence(s, t[..|t| - 1])))
  }

  /** Concatenation is associative. */
  lemma AppendAssoc<T>(a: seq<T>, b: seq<T>, c: seq<T>)
    ensures a + b + c == a + (b + c)
  {
  }

  /** No element occurs twice. */
  predicate Distinct<T(==)>(s: seq<T>)
  {
    forall i, j :: 0 <= i < j < |s| ==> s[i] != s[j]
  }
}
